=== FILE: README.md ===
# Youth recruitment landing page — a Dafny model

This project models the logic of a lead-capture site for a youth recruitment
programme. A visitor fills in a consultation form: name, phone number, region
and privacy consent. The form appears on the landing page (app/page.tsx). A
second, simpler version exists as a modal component with its own checks; it is
modelled too, although no page in the source renders it. Submitting stores an application row together with where the visitor
came from (referrer and UTM parameters, classified into a source label).
Staff sign in to an admin dashboard. There they list the rows, see each row's
source with a coloured badge, copy a row as text, mark it delivered and delete
it. A server route builds a Slack notice from the application fields posted
to it and forwards it to a webhook; no page in the source calls it.

What is modelled, module by module:

- `Text`: the JavaScript string operations the code relies on:
  - truthiness and `||` fallbacks;
  - `includes`, `indexOf` and `replace` with a string pattern;
  - ASCII `toLowerCase`;
  - `replace(/[^\d]/g, '')` as a filter;
  - `trim` with the ECMAScript whitespace set;
  - `split` and `join`.
- `Phone`: the phone-number formatter and the validator
  `/^010-\d{4}-\d{4}$/`. The validator is also written as an anchored matcher
  over a token list, and proved equal to the positional statement.
- `Records`: the application entity in three shapes: the attribution data,
  the insert payload and the stored row.
- `Attribution`: the source classifier and the attribution object built on
  page load.
- `ConsultationForm` and `ConsultationModal`: each component as a state record
  with one pure function per event handler. Each also has a `Step`/`Run` state
  machine with a reachability invariant.
- `AdminDashboard`: the source display and badge rules, the copy text, the
  delivery toggle and delete. They act on an in-memory copy of the table.
- `AdminConfig` and `DashboardPage`: the administrator allow-list, the
  server-side gate of the dashboard, and the login page's reaction to the
  redirect.
- `SlackRoute`: the webhook message and the handler's responses.

External effects become parameters:

- the datastore's answer (`Outcome`);
- the URL parser's host name (`hostOf`);
- the date formatter;
- the clock (`now`, `seoulTime`);
- the session user;
- the environment variables;
- the webhook call's outcome.

The source classifier lower-cases only the referrer. A UTM value is matched
case-sensitively, and a UTM value that matches no keyword is stored as the
label itself (components/ConsultationForm.tsx, lines 40-49), so the set of
labels is open. `Attribution.UtmCaseSensitive` and `Attribution.ClassifyUtm`
state this behaviour.

## Model

| member | source | states |
|---|---|---|
| Text.IndexOf | components/admin/AdminDashboardClient.tsx:226 | the result is non-negative exactly when the pattern occurs; it is then an occurrence and no earlier position is one |
| Text.IndexOfFrom | components/admin/AdminDashboardClient.tsx:226 | the first occurrence at or after the start position, or -1 when there is none from there on |
| Text.ReplaceFirst | components/admin/AdminDashboardClient.tsx:226 | without an occurrence the string is unchanged; otherwise exactly the first occurrence is replaced, wherever it is |
| Text.ReplaceFirstAt | components/admin/AdminDashboardClient.tsx:226 | given the first occurrence, the result is the text before it, the replacement, then the text after it |
| Text.ToLower | components/ConsultationForm.tsx:38 | same length; every character is mapped by the ASCII lower-case map |
| Text.ToLowerIdempotent | components/ConsultationForm.tsx:38 | lower-casing twice is lower-casing once |
| Text.Keep | components/ConsultationForm.tsx:73 | the filter's output contains only characters that pass the test |
| Text.KeepConcat | components/ConsultationForm.tsx:73 | filtering a concatenation filters each part |
| Text.Trim | components/ConsultationForm.tsx:109-114 | neither end of the result is whitespace; it is empty exactly when the input is blank |
| Text.TrimIsTrimmedSlice | components/ConsultationForm.tsx:109-114 | the trimmed text is a slice of the input with only whitespace outside it |
| Text.TrimIdempotent | lib/config/admin.ts:4 | trimming a trimmed string changes nothing |
| Text.Split | lib/config/admin.ts:4 | Splitting gives one more piece than the input has separators, and no piece contains the separator. |
| Text.JoinSplit | lib/config/admin.ts:4 | joining the pieces with the separator gives back the input |
| Phone.Format | components/ConsultationForm.tsx:72-81 | at most 13 characters; every character is a digit or a dash |
| Phone.FormatKeepsDigits | components/ConsultationForm.tsx:72-81 | the output's digits are exactly the first eleven digits of the input, in order |
| Phone.FormatDashes | components/ConsultationForm.tsx:72-81 | the dash positions are fixed by the digit count: none, index 3, or indices 3 and 8 |
| Phone.FormatIdempotent | components/ConsultationForm.tsx:72-81 | formatting formatted text changes nothing |
| Phone.Validate | components/ConsultationForm.tsx:83-86 | thirteen characters: `010-`, four digits, a dash, four digits |
| Phone.ValidateIsRegexMatch | components/ConsultationForm.tsx:83-86 | the validator accepts exactly the strings the anchored pattern `010-dddd-dddd` matches |
| Phone.MatchesPointwise | components/ConsultationForm.tsx:84 | an anchored match of single-character items is a position-by-position match of equal length |
| Phone.ValidateFormat | components/ConsultationForm.tsx:72-86 | formatted input is valid exactly when it has at least eleven digits beginning `010` |
| Phone.FormatShortIsInvalid | components/ConsultationForm.tsx:72-86 | fewer than eleven digits never format to a valid number |
| Phone.ValidIsNotBlank | components/ConsultationForm.tsx:112-117 | a valid number is never blank, so it always passes the blank-contact check |
| Records.Stored | components/ConsultationForm.tsx:131-133 | the datastore's side of an insert: reading the new row back gives the payload (less the two UTM columns the row type omits), with the assigned id and creation time, and the row is not yet delivered |
| Records.RegionLabelsDistinct | components/ConsultationForm.tsx:145 | distinct regions have distinct labels, so a stored or copied label identifies its region |
| Attribution.Classify | components/ConsultationForm.tsx:37-60 | the label is never empty; it is a fixed label or the UTM value itself; with neither input it is `direct`; with only a referrer it is `네이버 검색`, `당근`, `인스타` or `기타`, and `기타` exactly when no site test matches the lower-cased referrer |
| Attribution.ClassifyUtm | components/ConsultationForm.tsx:41-48 | the first matching keyword group decides: `naver`/`네이버` gives `네이버 파워링크`, otherwise `daangn`/`당근` gives `당근`, otherwise `insta`/`instagram`/`인스타` gives `인스타`; a value with no keyword is the label itself |
| Attribution.ClassifyReferrer | components/ConsultationForm.tsx:50-59 | the first matching site decides: `naver.com`/`search.naver` gives `네이버 검색`, otherwise `daangn.com`/`당근` gives `당근`, otherwise `instagram.com`/`instagr.am` gives `인스타`; `기타` exactly when none of the six site tests matches |
| Attribution.UtmIgnoresReferrer | components/ConsultationForm.tsx:40-49 | a non-empty UTM value decides the label whatever the referrer |
| Attribution.InstagramTestSubsumed | components/ConsultationForm.tsx:45 | the test for `instagram` adds nothing to the test for `insta` |
| Attribution.ReferrerCaseInsensitive | components/ConsultationForm.tsx:38-59 | referrers that differ only in ASCII case get the same label |
| Attribution.UtmCaseSensitive | components/ConsultationForm.tsx:41-48 | `naver` gives the paid-search label while `NAVER` is passed through unchanged |
| Attribution.NoLowerCaseMatch | components/ConsultationForm.tsx:41-48 | a string made only of upper-case ASCII letters contains none of the seven UTM keywords |
| Attribution.NaverBrandAndEmptyInputs | components/ConsultationForm.tsx:37-49 | `naver_brand` gives the paid-search label whatever the referrer; no UTM value and no referrer gives `direct` |
| Attribution.InstagramExample | components/ConsultationForm.tsx:50-56 | an Instagram profile link without UTM data gives the Instagram label |
| Attribution.Capture | components/ConsultationForm.tsx:62-68 | the referrer is stored, or `direct` when empty; empty UTM parameters are dropped; the source is the classifier's label and is never empty |
| ConsultationForm.Mount | components/ConsultationForm.tsx:62-68 | page load records the captured attribution data, which always has a non-empty source label, and changes nothing else |
| ConsultationForm.ChangeName | components/ConsultationForm.tsx:216 | the name field holds the typed value; nothing else changes |
| ConsultationForm.ChangePhone | components/ConsultationForm.tsx:88-101 | the field holds the formatted input; a complete invalid number sets the inline error; a valid or empty one clears it; otherwise the error is left as it was |
| ConsultationForm.ToggleRegion | components/ConsultationForm.tsx:298 | ticking the ticked region clears it; ticking another selects that one |
| ConsultationForm.ToggleRegionTwice | components/ConsultationForm.tsx:298 | clicking the same box twice restores the state when no region or that region was ticked; from another ticked region it ends with none |
| ConsultationForm.SetConsent | components/ConsultationForm.tsx:326 | the consent flag holds the checkbox value; nothing else changes |
| ConsultationForm.TogglePrivacyDetail | components/ConsultationForm.tsx:345 | the privacy panel flips between shown and hidden; nothing else changes |
| ConsultationForm.TogglePrivacyDetailTwice | components/ConsultationForm.tsx:345 | two clicks on the privacy link leave the form as it was |
| ConsultationForm.FirstFailure | components/ConsultationForm.tsx:109-123 | the first failing check's message, in the order blank name, blank contact, invalid phone, no region, no consent; none exactly when all pass |
| ConsultationForm.Payload | components/ConsultationForm.tsx:125-129 | the insert carries exactly the form's fields and the attribution data recorded on page load |
| ConsultationForm.Submit | components/ConsultationForm.tsx:103-143 | an insert happens exactly when every check passes, and then carries consent, a valid phone and the attribution data; a failed check or insert shows its message and leaves `success` alone; the error is empty exactly when the insert succeeds; busy is cleared |
| ConsultationForm.InFlight | components/ConsultationForm.tsx:105-106 | while the insert runs the error is cleared and the button is disabled |
| ConsultationForm.CloseSuccess | components/ConsultationForm.tsx:158-167 | the confirmation is hidden and the fields are back to their initial values |
| ConsultationForm.StepPreservesInv | components/ConsultationForm.tsx:88-101 | every event keeps the contact formatted and keeps the inline error truthful |
| ConsultationForm.RunPreservesInv | components/ConsultationForm.tsx:88-167 | the invariant holds after any sequence of events |
| ConsultationForm.ReachableErrorBlocksSubmit | components/ConsultationForm.tsx:88-117 | in any reachable state, a visible phone error means submitting is refused |
| ConsultationForm.SubmitDisabled | components/ConsultationForm.tsx:366 | the button is disabled while busy, while name, contact, region or consent is missing, or while the inline phone error shows |
| ConsultationForm.PassingChecksEnableButton | components/ConsultationForm.tsx:366 | an idle form without an inline error that passes every check has its button enabled |
| ConsultationForm.EnabledButBlankName | components/ConsultationForm.tsx:109-111 | the button is enabled for a one-space name, and submitting then fails on the name check |
| ConsultationForm.EnabledButShortNumber | components/ConsultationForm.tsx:88-117 | a half-typed number leaves the button enabled, and submitting then fails on the phone check |
| ConsultationModal.SetOpen | components/ConsultationModal.tsx:26-46 | closing resets the fields to their defaults and clears error, success and the privacy panel; opening changes nothing |
| ConsultationModal.ChangeName | components/ConsultationModal.tsx:143 | the name field holds the typed value; nothing else changes |
| ConsultationModal.ChangePhone | components/ConsultationModal.tsx:63-66 | the field holds the formatter's output for the keystrokes, which formatting again leaves unchanged; nothing else changes (the modal keeps no inline error) |
| ConsultationModal.SelectRegion | components/ConsultationModal.tsx:177 | the clicked region becomes the selection and nothing else changes |
| ConsultationModal.LastRegionWins | components/ConsultationModal.tsx:177 | of two clicks the last one decides, and clicking the selected region changes nothing, so no click sequence empties the selection |
| ConsultationModal.SetConsent | components/ConsultationModal.tsx:196-198 | the consent flag holds the checkbox value; nothing else changes |
| ConsultationModal.SetPrivacyDetail | components/ConsultationModal.tsx:208-263 | the link opens the privacy panel and its two buttons close it; nothing else changes |
| ConsultationModal.FirstFailure | components/ConsultationModal.tsx:75-83 | the checks are blank name, blank contact and no consent, in that order; none exactly when all three pass |
| ConsultationModal.Payload | components/ConsultationModal.tsx:85-87 | the insert carries exactly the modal's fields, unchanged, and no attribution data |
| ConsultationModal.Submit | components/ConsultationModal.tsx:68-100 | an insert happens exactly when the three checks pass; success only on a clean insert; failures show their message; busy is cleared |
| ConsultationModal.RunPreservesInv | components/ConsultationModal.tsx:26-100 | after any sequence of events the contact is formatter output and the modal is idle |
| ConsultationModal.SubmitDisabled | components/ConsultationModal.tsx:220 | the button is disabled while busy or while the success message is up; the form's field checks play no part |
| ConsultationModal.ReachableDisabledIffSuccess | components/ConsultationModal.tsx:220 | in every reachable state the button is disabled exactly while the success message is up |
| ConsultationModal.SameFormatterInBothForms | components/ConsultationModal.tsx:49-61 | both components store the same formatted text for the same input |
| ConsultationModal.FormChecksImplyModalChecks | components/ConsultationModal.tsx:75-83 | whatever the page form would insert, the modal would insert too |
| ConsultationModal.ShortContactAcceptedByModalOnly | components/ConsultationModal.tsx:75-83 | a three-digit contact is accepted by the modal and refused by the page form |
| ConsultationModal.FailedInsertKeepsSuccessOff | components/ConsultationModal.tsx:95-96 | a failed insert never shows success and always shows a non-empty error |
| AdminDashboard.SourceDisplay | components/admin/AdminDashboardClient.tsx:216-232 | the shown source falls back in order: stored label, UTM source, the referrer's host with its first `www.` removed (the raw referrer when it does not parse), `직접 접근` |
| AdminDashboard.WwwRemovedFromTheMiddle | components/admin/AdminDashboardClient.tsx:226 | the `www.` removal cuts the first `www.` even from the middle of a host name |
| AdminDashboard.BadgeColor | components/admin/AdminDashboardClient.tsx:235-241 | the first matching test decides: `네이버` gives blue, otherwise `당근` orange, otherwise `인스타` pink; grey exactly for `직접 접근`, and purple exactly when none of the four tests matches |
| AdminDashboard.ClassifierLabelBadges | components/admin/AdminDashboardClient.tsx:235-241 | the badge for each classifier label; the form's `direct` gets the unknown-source colour, not the grey of `직접 접근` |
| AdminDashboard.IsDelivered | components/admin/AdminDashboardClient.tsx:243 | a row is delivered when its `delivered_at` is present and non-empty |
| AdminDashboard.DeliveredIffChecked | components/admin/AdminDashboardClient.tsx:243 | a row given the update's payload reads as delivered exactly when the box was checked, for a non-empty timestamp |
| AdminDashboard.CopyLines | components/admin/AdminDashboardClient.tsx:148-154 | five lines, plus a sixth only when something is selected: the name, the contact, the region's label, the source or `직접 접근`, the formatted date or `-`, then the selected items joined by `, ` |
| AdminDashboard.CopiedRegionIdentifiesRegion | components/admin/AdminDashboardClient.tsx:151 | two copies with the same region line come from rows with the same region |
| AdminDashboard.CopyText | components/admin/AdminDashboardClient.tsx:148-154 | the template literal, written out line by line |
| AdminDashboard.CopyTextIsLines | components/admin/AdminDashboardClient.tsx:148-154 | the copied text is exactly those lines, each ending with a line break |
| AdminDashboard.SetDeliveredAt | components/admin/AdminDashboardClient.tsx:97-100 | the rows with the id get the new `delivered_at`; every other row is unchanged |
| AdminDashboard.DeliveryPayload | components/admin/AdminDashboardClient.tsx:93-95 | the timestamp when checked, null when unchecked |
| AdminDashboard.ToggleDelivery | components/admin/AdminDashboardClient.tsx:90-132 | on success the update is applied and the matching toast is shown; on failure the rows stay, the error is shown and the failure toast appears |
| AdminDashboard.ToggleChangesOnlyDeliveredAt | components/admin/AdminDashboardClient.tsx:90-122 | after a successful toggle, matching rows show as delivered exactly when checked; only `delivered_at` changed; other rows are untouched |
| AdminDashboard.RemoveId | components/admin/AdminDashboardClient.tsx:72-75 | the remaining rows are exactly the original rows without the id; the length drops by the number removed |
| AdminDashboard.RemoveIdConcat | components/admin/AdminDashboardClient.tsx:72-75 | removal acts piecewise, so the remaining rows keep their order |
| AdminDashboard.RemoveAbsentId | components/admin/AdminDashboardClient.tsx:72-75 | deleting an id no row has changes nothing |
| AdminDashboard.Delete | components/admin/AdminDashboardClient.tsx:65-88 | nothing happens without confirmation; otherwise the rows are removed, or the error is shown and the rows stay |
| AdminDashboard.FormRowShowsClassifiedSource | components/admin/AdminDashboardClient.tsx:216-218 | a row inserted by the page form shows, and copies, the label the classifier gave it on page load |
| AdminDashboard.ModalRowShowsDirectAccess | components/admin/AdminDashboardClient.tsx:216-241 | a row inserted by the modal shows as direct access with the grey badge |
| AdminConfig.TrimAll | lib/config/admin.ts:4 | each entry is the corresponding piece, trimmed |
| AdminConfig.ParseAdminEmails | lib/config/admin.ts:3-8 | unset or empty gives the empty list; otherwise one trimmed entry per comma-separated piece |
| AdminConfig.EntriesAreClean | lib/config/admin.ts:4 | no entry contains a comma or starts or ends with whitespace |
| AdminConfig.IsAdminEmail | lib/config/admin.ts:10-15 | a missing or empty email is refused; otherwise a non-empty list admits its members and an empty list admits everyone |
| AdminConfig.IsAdminEmailCases | lib/config/admin.ts:10-15 | a missing or empty email is refused; a non-empty list means membership; an empty list admits everyone |
| AdminConfig.UnsetListAdmitsEveryone | lib/config/admin.ts:3-15 | with the variable unset, every non-empty email is admitted |
| AdminConfig.WhitespaceListAdmitsNobody | lib/config/admin.ts:3-15 | a whitespace-only variable parses to one empty entry and then admits nobody |
| AdminConfig.AdmittedIffTrimmedPiece | lib/config/admin.ts:3-15 | with a non-empty variable, an email is admitted exactly when it is non-empty and equals some trimmed piece |
| AdminConfig.AddingAdminsNeverRevokes | lib/config/admin.ts:12 | with a non-empty list, adding entries never revokes anyone |
| AdminConfig.FirstAdminRevokesOthers | lib/config/admin.ts:12 | adding a first entry to an empty list does revoke the others |
| DashboardPage.Decide | app/admin/dashboard/page.tsx:13-22 | no session redirects to login; a refused email redirects with `unauthorized`; only an admitted email renders the dashboard |
| DashboardPage.ErrorParam | app/admin/login/page.tsx:17 | a value is read only from a login path carrying `?error=`, and it is the text after it |
| DashboardPage.ErrorParamReadsBack | app/admin/login/page.tsx:17 | the value written after `?error=` is the value read back |
| DashboardPage.ErrorOnLoad | app/admin/login/page.tsx:16-21 | only the `unauthorized` code sets the permission message; anything else leaves the error as it was |
| DashboardPage.RedirectMessages | app/admin/dashboard/page.tsx:13-20 | the unauthorized redirect makes the login page show the permission message; the plain redirect shows none |
| DashboardPage.EmaillessUserRefused | app/admin/dashboard/page.tsx:18-20 | a signed-in user without an email is always refused |
| DashboardPage.UnsetListLetsEveryoneIn | app/admin/dashboard/page.tsx:18-22 | with the allow-list unset, every user with an email sees the dashboard |
| SlackRoute.Interpolate | app/api/slack/route.ts:38-42 | a present value is printed as itself and an absent one as `undefined`, as a template literal does |
| SlackRoute.Fields | app/api/slack/route.ts:33-53 | four fields in order: name, contact, region or `미선택`, source or `직접 접속` |
| SlackRoute.BuildMessage | app/api/slack/route.ts:19-67 | fallback text, then header, divider, the fields section, divider, and the time context |
| SlackRoute.FieldsReadBack | app/api/slack/route.ts:36-51 | each field's value can be read back after its label line |
| SlackRoute.Post | app/api/slack/route.ts:3-94 | an unreadable body or missing URL fails with 500 and sends nothing; otherwise the message is sent to the URL; a thrown call fails with 500 and its message; success exactly on a 2xx answer, always with status 200 |
| SlackRoute.Failure | app/api/slack/route.ts:87-93 | a thrown error gives 500 with its message, or the generic message when it has none |
| SlackRoute.Forwardable | app/api/slack/route.ts:80-83 | a status a JSON response can be built with: 200 to 599, except the null-body statuses 204, 205 and 304 |
| SlackRoute.FailedDeliveryForwardsStatus | app/api/slack/route.ts:77-84 | a non-2xx webhook status that a response can carry is passed back with the fixed delivery error |
| SlackRoute.UnforwardableStatusFails | app/api/slack/route.ts:77-93 | a non-2xx status a response cannot carry (below 200, 304, above 599) makes the handler answer 500 from its catch block |
| SlackRoute.ErrorsAreNeverEmpty | app/api/slack/route.ts:10-93 | every error response carries a non-empty message |
| SlackRoute.StatusSeparatesOutcomes | app/api/slack/route.ts:77-93 | the response is a success exactly when its status is 2xx |
| SlackRoute.EmptySourceShowsDirectVisit | app/api/slack/route.ts:44-51 | empty region and source show their fallbacks; a non-empty region shows as given |

## Left out

- Browser effects have no model: `document.body` scroll locking, toast timers, the clipboard, `console` output, `confirm` dialogs (a parameter of `Delete`) and navigation.
- The modal's two-second success timer, which calls its `onClose` prop, is not modelled. The `Close` action stands for the `isOpen` prop turning false, which is what a parent's `onClose` would be expected to cause; no page in the source mounts the modal.
- HTML constraint validation (`required`, `maxLength={13}`) is not modelled. The button's `disabled` expression is.
- Reloading the table after a delete or a delivery toggle (`loadApplications`, lines 31-47 of the dashboard client) is not modelled. The model applies the mutation to its in-memory copy, which is what a successful reload would show. A failing reload is left out.
- Dashboard sign-in checks on the client (`checkAuth`), logout and the login form's password sign-in are left out: they are calls into the authentication service.
- Row-level security in the datastore is not modelled. The datastore's answer is the `Outcome` parameter.
- `formatDate`, the URL parser's host name, `new Date()` and `toLocaleString` are parameters. Their formats are not modelled.
- Text.ToLower: only ASCII letters are mapped, not full Unicode case mapping. The labels do not change: the only non-ASCII characters that lower-case into ASCII are U+0130 (to `i` followed by U+0307) and U+212A (to `k`). No site pattern contains `k` or an `i` followed by U+0307 or at its end, and the Hangul syllables of `당근` have no case.
- SlackRoute.Post: the text of the error the runtime raises for a status a response cannot carry is the `runtimeError` parameter, not a fixed message.
- SlackRoute.Post: the body's fields are strings or absent. Other JSON values (numbers, `null`, objects) are not modelled. A body that cannot be parsed or destructured is one `Unreadable` case. A failure of `response.text()` after a non-2xx answer is not modelled.
- Concurrent and repeated submissions are not modelled: each handler runs to completion before the next event.
- The landing page's scroll behaviour, the layout and the footer hold no logic that the forms or the dashboard depend on.
- Records.Stored: the row type carries no `utm_medium` or `utm_campaign` column, because the dashboard never reads them. Reading a row back therefore cannot recover them.
- DashboardPage.ErrorParam: reads only a query made of the `error` parameter alone. The redirects never produce any other query.

=== FILE: admin_config.dfy ===
/** The administrator allow-list (`lib/config/admin.ts`): parsing the
    comma-separated environment value and the membership decision with its
    empty-list escape hatch. */
module AdminConfig {
  import opened Wrappers
  import opened Text

  /** `parts.map((email) => email.trim())`. */
  function TrimAll(parts: seq<string>): (r: seq<string>)
    ensures |r| == |parts|
    ensures forall k :: 0 <= k < |parts| ==> r[k] == Trim(parts[k])
    decreases |parts|
  {
    if |parts| == 0 then [] else [Trim(parts[0])] + TrimAll(parts[1..])
  }

  /** `ADMIN_EMAILS`: an unset or empty environment value gives the empty
      list; any other value gives one trimmed entry per comma-separated
      piece, so at least one entry. */
  function ParseAdminEmails(env: Option<string>): (admins: seq<string>)
    ensures !Truthy(env) ==> admins == []
    ensures Truthy(env) ==> |admins| == Count(env.value, ',') + 1
    ensures Truthy(env) ==> forall k :: 0 <= k < |admins| ==> admins[k] == Trim(Split(env.value, ',')[k])
  {
    if Truthy(env) then TrimAll(Split(env.value, ',')) else []
  }

  /** Every entry is clean: no comma inside and no whitespace at either end. */
  lemma EntriesAreClean(env: Option<string>)
    ensures var admins := ParseAdminEmails(env);
      && (forall k :: 0 <= k < |admins| ==> ',' !in admins[k])
      && (forall k :: 0 <= k < |admins| && admins[k] != "" ==>
            !IsJsSpace(admins[k][0]) && !IsJsSpace(admins[k][|admins[k]| - 1]))
  {
    if Truthy(env) {
      var parts := Split(env.value, ',');
      var admins := TrimAll(parts);
      forall k | 0 <= k < |admins|
        ensures ',' !in admins[k]
        ensures admins[k] != "" ==> !IsJsSpace(admins[k][0]) && !IsJsSpace(admins[k][|admins[k]| - 1])
      {
        assert admins[k] == Trim(parts[k]);
        TrimKeepsOut(parts[k], ',');
      }
    }
  }

  /** Trimming never brings in a character the string lacks. */
  lemma TrimKeepsOut(s: string, c: char)
    requires c !in s
    ensures c !in Trim(s)
  {
    var r := Trim(s);
    TrimIsTrimmedSlice(s);
    var i :| TrimmedAt(s, r, i);
    assert r == s[i..i + |r|];
  }

  /** `isAdminEmail`: never for a missing or empty email; membership when
      the list is non-empty; everyone otherwise. */
  predicate IsAdminEmail(admins: seq<string>, email: Option<string>) {
    if !Truthy(email) then false
    else if |admins| > 0 then email.value in admins
    else true
  }

  /** The three regimes of the decision. */
  lemma IsAdminEmailCases(admins: seq<string>, email: Option<string>)
    ensures !Truthy(email) ==> !IsAdminEmail(admins, email)
    ensures Truthy(email) && |admins| > 0 ==> (IsAdminEmail(admins, email) <==> email.value in admins)
    ensures Truthy(email) && |admins| == 0 ==> IsAdminEmail(admins, email)
  {
  }

  /** With no environment value, every signed-in user with an email is an
      administrator. */
  lemma UnsetListAdmitsEveryone(env: Option<string>, e: string)
    requires !Truthy(env)
    ensures IsAdminEmail(ParseAdminEmails(env), Some(e)) <==> e != ""
  {
  }

  /** A whitespace-only environment value parses to one empty entry, and the
      resulting non-empty list admits nobody. */
  lemma WhitespaceListAdmitsNobody(v: string, email: Option<string>)
    requires v != "" && IsBlank(v)
    ensures ParseAdminEmails(Some(v)) == [""]
    ensures !IsAdminEmail(ParseAdminEmails(Some(v)), email)
  {
    assert !IsJsSpace(',');
    NoSeparatorSplitsToItself(v, ',');
  }

  /** A string without the separator splits into itself. */
  lemma NoSeparatorSplitsToItself(s: string, sep: char)
    requires sep !in s
    ensures Split(s, sep) == [s]
  {
    CountAbsent(s, sep);
    JoinSplit(s, sep);
  }

  lemma {:induction false} CountAbsent(s: string, c: char)
    requires c !in s
    ensures Count(s, c) == 0
    decreases |s|
  {
    if |s| > 0 {
      assert s[0] != c;
      assert forall x :: x in s[1..] ==> x in s;
      CountAbsent(s[1..], c);
    }
  }

  /** From environment to decision: with a non-empty value, an email is
      admitted exactly when it is non-empty and equals some comma-separated
      piece after trimming. */
  lemma AdmittedIffTrimmedPiece(v: string, e: string)
    requires v != ""
    ensures IsAdminEmail(ParseAdminEmails(Some(v)), Some(e)) <==>
      e != "" && exists k :: 0 <= k < |Split(v, ',')| && Trim(Split(v, ',')[k]) == e
  {
    var admins := ParseAdminEmails(Some(v));
    if e != "" && e in admins {
      var k :| 0 <= k < |admins| && admins[k] == e;
      assert Trim(Split(v, ',')[k]) == e;
    }
  }

  /** With a non-empty list, adding entries never revokes anyone. */
  lemma AddingAdminsNeverRevokes(a: seq<string>, b: seq<string>, email: Option<string>)
    requires |a| > 0
    requires forall x :: x in a ==> x in b
    ensures IsAdminEmail(a, email) ==> IsAdminEmail(b, email)
  {
    if IsAdminEmail(a, email) {
      assert email.value in b;
    }
  }

  /** Adding entries to an EMPTY list does revoke: the escape hatch closes. */
  lemma FirstAdminRevokesOthers()
    ensures IsAdminEmail([], Some("staff@example.com"))
    ensures !IsAdminEmail(["admin@example.com"], Some("staff@example.com"))
  {
  }
}

=== FILE: admin_dashboard.dfy ===
/** The staff dashboard's display rules and mutations
    (`AdminDashboardClient`), over an in-memory copy of the table. */
module AdminDashboard {
  import opened Wrappers
  import opened Text
  import opened Records
  import Attribution

  const DirectAccess := "직접 접근"
  const DeleteFailed := "삭제에 실패했습니다. Supabase RLS 정책을 확인해주세요."
  const DeliveryFailed := "전달 처리에 실패했습니다."
  const DeliveredToast := "전달처리되었습니다"
  const UndeliveredToast := "전달처리 취소되었습니다"
  const DeliveryFailedToast := "전달 처리 실패"

  // ---------------------------------------------------------------------
  // Display rules

  /** `getSourceDisplay`: the first of these that applies, each only when
      every earlier field is missing or empty: the stored label, the UTM
      source, the referrer's host name with its first `www.` removed (the
      raw referrer when it does not parse), and `직접 접근`. `hostOf` is the
      URL parser's host name, `None` where it throws. */
  function SourceDisplay(app: Application, hostOf: string -> Option<string>): (r: string)
    ensures Truthy(app.source) ==> r == app.source.value
    ensures !Truthy(app.source) && Truthy(app.utmSource) ==> r == app.utmSource.value
    ensures !Truthy(app.source) && !Truthy(app.utmSource) && Truthy(app.referrerUrl)
            && app.referrerUrl.value != NoReferrer && hostOf(app.referrerUrl.value) == None
            ==> r == app.referrerUrl.value
    ensures !Truthy(app.source) && !Truthy(app.utmSource) && Truthy(app.referrerUrl)
            && app.referrerUrl.value != NoReferrer && hostOf(app.referrerUrl.value).Some?
            ==> r == ReplaceFirst(hostOf(app.referrerUrl.value).value, "www.", "")
    ensures !Truthy(app.source) && !Truthy(app.utmSource)
            && (!Truthy(app.referrerUrl) || app.referrerUrl.value == NoReferrer)
            ==> r == DirectAccess
  {
    if Truthy(app.source) then app.source.value
    else if Truthy(app.utmSource) then app.utmSource.value
    else if Truthy(app.referrerUrl) && app.referrerUrl.value != NoReferrer then
      match hostOf(app.referrerUrl.value)
      case Some(host) => ReplaceFirst(host, "www.", "")
      case None => app.referrerUrl.value
    else DirectAccess
  }

  /** The `www.` removal is a first-occurrence replace, not a prefix strip:
      when `www.` follows any dot-free text (`newww.example.com`, say), the
      text is kept and `www.` is cut out of the middle. */
  lemma WwwRemovedFromTheMiddle(p: string, rest: string)
    requires '.' !in p
    ensures ReplaceFirst(p + "www." + rest, "www.", "") == p + rest
  {
    var host := p + "www." + rest;
    var k := |p|;
    WwwAfterDotFree(p, rest);
    NoEarlierWww(host, k);
    ReplaceFirstAt(host, "www.", "", k);
    assert host[..k] == p;
    assert host[k + 4..] == rest;
  }

  lemma WwwAfterDotFree(p: string, rest: string)
    requires '.' !in p
    ensures OccursAt(p + "www." + rest, "www.", |p|)
    ensures forall j :: 0 <= j < |p| + 3 ==> (p + "www." + rest)[j] != '.'
  {
    var host := p + "www." + rest;
    var k := |p|;
    assert host[k..k + 4] == "www.";
    forall j | 0 <= j < k + 3 ensures host[j] != '.' {
      if j < k {
        assert host[j] == p[j];
      } else {
        assert host[j] == "www."[j - k];
      }
    }
  }

  /** `www.` cannot start before `k` when no dot comes before `k + 3`. */
  lemma NoEarlierWww(host: string, k: int)
    requires 0 <= k && k + 3 <= |host|
    requires forall j :: 0 <= j < k + 3 ==> host[j] != '.'
    ensures forall i :: 0 <= i < k ==> !OccursAt(host, "www.", i)
  {
    forall i | 0 <= i < k ensures !OccursAt(host, "www.", i) {
      if i + 4 <= |host| {
        assert host[i..i + 4][3] == host[i + 3];
      }
    }
  }

  /** The badge colours. */
  datatype Badge = Blue | Orange | Pink | Gray | Purple {
    function ClassName(): string {
      match this
      case Blue => "bg-blue-500/20 text-blue-300"
      case Orange => "bg-orange-500/20 text-orange-300"
      case Pink => "bg-pink-500/20 text-pink-300"
      case Gray => "bg-gray-500/20 text-gray-300"
      case Purple => "bg-purple-500/20 text-purple-300"
    }
  }

  /** `직접 접근` contains none of the three keywords the badge tests first. */
  lemma DirectAccessHasNoKeyword()
    ensures !Contains(DirectAccess, "네이버") && !Contains(DirectAccess, "당근") && !Contains(DirectAccess, "인스타")
  {
    NotContainsMissingChar(DirectAccess, "네이버", 0);
    NotContainsMissingChar(DirectAccess, "당근", 0);
    NotContainsMissingChar(DirectAccess, "인스타", 0);
  }

  /** `getSourceBadgeColor`: first match among contains 네이버, contains 당근,
      contains 인스타, equals 직접 접근; purple otherwise. Grey marks exactly
      the direct-access text, and purple exactly the sources no test matches. */
  function BadgeColor(source: string): (r: Badge)
    ensures r == Gray <==> source == DirectAccess
    ensures Contains(source, "네이버") ==> r == Blue
    ensures !Contains(source, "네이버") && Contains(source, "당근") ==> r == Orange
    ensures !Contains(source, "네이버") && !Contains(source, "당근") && Contains(source, "인스타") ==> r == Pink
    ensures r == Purple <==> !Contains(source, "네이버") && !Contains(source, "당근")
                             && !Contains(source, "인스타") && source != DirectAccess
  {
    DirectAccessHasNoKeyword();
    if Contains(source, "네이버") then Blue
    else if Contains(source, "당근") then Orange
    else if Contains(source, "인스타") then Pink
    else if source == DirectAccess then Gray
    else Purple
  }

  /** The badge each fixed classifier label gets. The form's `direct` label
      is not the dashboard's `직접 접근`, so it is shown purple, like an
      unknown source. */
  lemma ClassifierLabelBadges()
    ensures BadgeColor(Attribution.NaverAd) == Blue && BadgeColor(Attribution.NaverSearch) == Blue
    ensures BadgeColor(Attribution.Daangn) == Orange
    ensures BadgeColor(Attribution.Instagram) == Pink
    ensures BadgeColor(DirectAccess) == Gray
    ensures BadgeColor(Attribution.Other) == Purple
    ensures BadgeColor(Attribution.Direct) == Purple
  {
    assert OccursAt(Attribution.NaverAd, "네이버", 0);
    assert OccursAt(Attribution.NaverSearch, "네이버", 0);
    ContainsSelf(Attribution.Daangn);
    ContainsSelf(Attribution.Instagram);
    NotContainsMissingChar(Attribution.Daangn, "네이버", 0);
    NotContainsMissingChar(Attribution.Instagram, "네이버", 0);
    NotContainsMissingChar(Attribution.Instagram, "당근", 0);
    NotContainsMissingChar(Attribution.Other, "네이버", 0);
    NotContainsMissingChar(Attribution.Other, "당근", 0);
    NotContainsMissingChar(Attribution.Other, "인스타", 0);
    NotContainsMissingChar(Attribution.Direct, "네이버", 0);
    NotContainsMissingChar(Attribution.Direct, "당근", 0);
    NotContainsMissingChar(Attribution.Direct, "인스타", 0);
  }

  /** `isDelivered`: the timestamp is present and non-empty. */
  predicate IsDelivered(app: Application) {
    Truthy(app.deliveredAt)
  }

  /** A row given the update's payload reads as delivered exactly when the
      box was checked, provided the clock gives a non-empty timestamp. */
  lemma DeliveredIffChecked(app: Application, checked: bool, now: string)
    requires now != ""
    ensures IsDelivered(app.(deliveredAt := DeliveryPayload(checked, now))) <==> checked
  {
  }

  // ---------------------------------------------------------------------
  // Copy text

  /** The lines of the copied text: five fixed lines, then the selection
      line only when something is selected. */
  function CopyLines(app: Application, formatDate: string -> string): (lines: seq<string>)
    ensures |lines| == (if |app.checkboxSelection| > 0 then 6 else 5)
    ensures lines[0] == "이름: " + app.name
    ensures lines[1] == "연락처: " + app.contact
    ensures lines[2] == "지역: " + app.region.Label()
    ensures lines[3] == "유입 경로: " + (if Truthy(app.source) then app.source.value else DirectAccess)
    ensures Truthy(app.createdAt) ==> lines[4] == "신청일시: " + formatDate(app.createdAt.value)
    ensures !Truthy(app.createdAt) ==> lines[4] == "신청일시: -"
    ensures |app.checkboxSelection| > 0 ==> lines[5] == "선택 항목: " + Join(app.checkboxSelection, ", ")
  {
    [ "이름: " + app.name,
      "연락처: " + app.contact,
      "지역: " + app.region.Label(),
      "유입 경로: " + OrElse(app.source, DirectAccess),
      "신청일시: " + (if Truthy(app.createdAt) then formatDate(app.createdAt.value) else "-") ]
    + (if |app.checkboxSelection| > 0 then ["선택 항목: " + Join(app.checkboxSelection, ", ")] else [])
  }

  /** The region line of a copy names the region unambiguously: two copies
      with the same region line come from rows with the same region. */
  lemma CopiedRegionIdentifiesRegion(a: Application, b: Application, f: string -> string, g: string -> string)
    ensures CopyLines(a, f)[2] == CopyLines(b, g)[2] ==> a.region == b.region
  {
    var prefix := "지역: ";
    if CopyLines(a, f)[2] == CopyLines(b, g)[2] {
      assert (prefix + a.region.Label())[|prefix|..] == a.region.Label();
      assert (prefix + b.region.Label())[|prefix|..] == b.region.Label();
      RegionLabelsDistinct(a.region, b.region);
    }
  }

  /** Each line followed by a newline. */
  function Unlines(lines: seq<string>): string
    decreases |lines|
  {
    if |lines| == 0 then "" else lines[0] + "\n" + Unlines(lines[1..])
  }

  /** `copyApplicationInfo`'s template literal: five lines, each ending in a
      line break, then the selection line (with its own line break) when
      there is a selection. */
  function CopyText(app: Application, formatDate: string -> string): string {
    "이름: " + app.name + "\n" +
    ("연락처: " + app.contact + "\n" +
    ("지역: " + app.region.Label() + "\n" +
    ("유입 경로: " + OrElse(app.source, DirectAccess) + "\n" +
    ("신청일시: " + (if Truthy(app.createdAt) then formatDate(app.createdAt.value) else "-") + "\n" +
    (if |app.checkboxSelection| > 0 then "선택 항목: " + Join(app.checkboxSelection, ", ") + "\n" else "")))))
  }

  lemma UnlinesCons(line: string, rest: seq<string>)
    ensures Unlines([line] + rest) == line + "\n" + Unlines(rest)
  {
    assert ([line] + rest)[1..] == rest;
  }

  lemma Unlines5(a: string, b: string, c: string, d: string, e: string, extra: seq<string>)
    ensures Unlines([a, b, c, d, e] + extra)
      == a + "\n" + (b + "\n" + (c + "\n" + (d + "\n" + (e + "\n" + Unlines(extra)))))
  {
    var l4 := [e] + extra;
    var l3 := [d] + l4;
    var l2 := [c] + l3;
    var l1 := [b] + l2;
    assert [a, b, c, d, e] + extra == [a] + l1;
    UnlinesCons(e, extra);
    UnlinesCons(d, l4);
    UnlinesCons(c, l3);
    UnlinesCons(b, l2);
    UnlinesCons(a, l1);
  }

  /** The copied text is exactly the line list, each line newline-terminated. */
  lemma CopyTextIsLines(app: Application, formatDate: string -> string)
    ensures CopyText(app, formatDate) == Unlines(CopyLines(app, formatDate))
  {
    var sel := app.checkboxSelection;
    var extra := if |sel| > 0 then ["선택 항목: " + Join(sel, ", ")] else [];
    var date := if Truthy(app.createdAt) then formatDate(app.createdAt.value) else "-";
    var src := OrElse(app.source, DirectAccess);
    var a, b, c, d, e :=
      "이름: " + app.name, "연락처: " + app.contact, "지역: " + app.region.Label(),
      "유입 경로: " + src, "신청일시: " + date;
    assert CopyLines(app, formatDate) == [a, b, c, d, e] + extra;
    Unlines5(a, b, c, d, e, extra);
    if |sel| > 0 {
      UnlinesCons(extra[0], []);
      assert extra == [extra[0]] + [];
      assert extra[0] + "\n" + "" == extra[0] + "\n";
    }
  }

  // ---------------------------------------------------------------------
  // The table and its mutations

  /** The dashboard's state: the rows as last loaded, the error banner and
      the toast. */
  datatype Dashboard = Dashboard(rows: seq<Application>, error: string, toast: string)

  /** The update `{ delivered_at }` applied to the rows with the given id. */
  function SetDeliveredAt(rows: seq<Application>, id: string, v: Option<string>): (r: seq<Application>)
    ensures |r| == |rows|
    ensures forall i :: 0 <= i < |rows| && rows[i].id == id ==> r[i] == rows[i].(deliveredAt := v)
    ensures forall i :: 0 <= i < |rows| && rows[i].id != id ==> r[i] == rows[i]
    decreases |rows|
  {
    if |rows| == 0 then []
    else [if rows[0].id == id then rows[0].(deliveredAt := v) else rows[0]]
         + SetDeliveredAt(rows[1..], id, v)
  }

  /** The only field of the update: a timestamp when checked, null when not. */
  function DeliveryPayload(checked: bool, now: string): (deliveredAt: Option<string>)
    ensures checked <==> deliveredAt.Some?
    ensures checked ==> deliveredAt.value == now
  {
    if checked then Some(now) else None
  }

  /** `handleDeliveryToggle`. `now` is `new Date().toISOString()` and
      `outcome` the datastore's answer. */
  function ToggleDelivery(d: Dashboard, id: string, checked: bool, now: string, outcome: Outcome): (t: Dashboard)
    ensures outcome == Done ==>
      t.rows == SetDeliveredAt(d.rows, id, DeliveryPayload(checked, now)) && t.error == ""
      && t.toast == (if checked then DeliveredToast else UndeliveredToast)
    ensures outcome.Failed? ==>
      t.rows == d.rows && t.error == OrElse(Some(outcome.message), DeliveryFailed) && t.toast == DeliveryFailedToast
  {
    match outcome
    case Done =>
      Dashboard(SetDeliveredAt(d.rows, id, DeliveryPayload(checked, now)), "",
                if checked then DeliveredToast else UndeliveredToast)
    case Failed(m) =>
      Dashboard(d.rows, OrElse(Some(m), DeliveryFailed), DeliveryFailedToast)
  }

  /** After a successful toggle with a (non-empty) timestamp, every row with
      that id shows as delivered exactly when the box was checked, only its
      `delivered_at` changed, and every other row is untouched. */
  lemma ToggleChangesOnlyDeliveredAt(d: Dashboard, id: string, checked: bool, now: string)
    requires now != ""
    ensures var t := ToggleDelivery(d, id, checked, now, Done);
      && |t.rows| == |d.rows|
      && (forall i :: 0 <= i < |d.rows| && d.rows[i].id == id ==>
            IsDelivered(t.rows[i]) == checked && t.rows[i].(deliveredAt := d.rows[i].deliveredAt) == d.rows[i])
      && (forall i :: 0 <= i < |d.rows| && d.rows[i].id != id ==> t.rows[i] == d.rows[i])
  {
  }

  /** Number of rows with the given id. */
  function CountId(rows: seq<Application>, id: string): nat
    decreases |rows|
  {
    if |rows| == 0 then 0 else (if rows[0].id == id then 1 else 0) + CountId(rows[1..], id)
  }

  /** The rows left after `.delete().eq('id', id)`, in their order. */
  function RemoveId(rows: seq<Application>, id: string): (r: seq<Application>)
    ensures forall x :: x in r ==> x in rows && x.id != id
    ensures forall i :: 0 <= i < |rows| && rows[i].id != id ==> rows[i] in r
    ensures |r| + CountId(rows, id) == |rows|
    decreases |rows|
  {
    if |rows| == 0 then []
    else (if rows[0].id == id then [] else [rows[0]]) + RemoveId(rows[1..], id)
  }

  /** Removal works piecewise, so it keeps the remaining rows in order. */
  lemma {:induction false} RemoveIdConcat(a: seq<Application>, b: seq<Application>, id: string)
    ensures RemoveId(a + b, id) == RemoveId(a, id) + RemoveId(b, id)
    decreases |a|
  {
    if |a| == 0 {
      assert a + b == b;
    } else {
      assert (a + b)[1..] == a[1..] + b;
      RemoveIdConcat(a[1..], b, id);
    }
  }

  /** Removing an id no row has changes nothing. */
  lemma {:induction false} RemoveAbsentId(rows: seq<Application>, id: string)
    requires forall i :: 0 <= i < |rows| ==> rows[i].id != id
    ensures RemoveId(rows, id) == rows
    decreases |rows|
  {
    if |rows| > 0 {
      assert rows[0].id != id;
      forall i | 0 <= i < |rows| - 1 ensures rows[1..][i].id != id {
        assert rows[1..][i] == rows[i + 1];
      }
      RemoveAbsentId(rows[1..], id);
      assert rows == [rows[0]] + rows[1..];
    }
  }

  /** `handleDelete`: nothing happens unless the prompt is confirmed; then
      the error is cleared and either the rows with that id are gone or the
      failure is shown and the rows stay. */
  function Delete(d: Dashboard, id: string, confirmed: bool, outcome: Outcome): (t: Dashboard)
    ensures !confirmed ==> t == d
    ensures confirmed && outcome == Done ==> t == d.(rows := RemoveId(d.rows, id), error := "")
    ensures confirmed && outcome.Failed? ==>
      t == d.(error := OrElse(Some(outcome.message), DeleteFailed))
  {
    if !confirmed then d
    else match outcome
      case Done => d.(rows := RemoveId(d.rows, id), error := "")
      case Failed(m) => d.(error := OrElse(Some(m), DeleteFailed))
  }

  // ---------------------------------------------------------------------
  // From submission to display

  /** A row inserted by the consultation form is shown with the label the
      classifier gave it on page load, whatever the host-name parser does,
      and the copied text names the same label. */
  lemma FormRowShowsClassifiedSource(p: NewApplication, referrer: string, utmSource: Option<string>,
                                     utmMedium: Option<string>, utmCampaign: Option<string>,
                                     id: string, createdAt: string, hostOf: string -> Option<string>,
                                     formatDate: string -> string)
    requires p.referrerData == Attribution.Capture(referrer, utmSource, utmMedium, utmCampaign)
    ensures var row := Stored(p, id, createdAt);
      var classified := Attribution.Classify(OrElse(utmSource, ""), referrer);
      SourceDisplay(row, hostOf) == classified && CopyLines(row, formatDate)[3] == "유입 경로: " + classified
  {
  }

  /** A row inserted by the modal carries no attribution and is shown as
      direct access with the grey badge. */
  lemma ModalRowShowsDirectAccess(p: NewApplication, id: string, createdAt: string,
                                  hostOf: string -> Option<string>)
    requires p.referrerData == NoReferrerData
    ensures SourceDisplay(Stored(p, id, createdAt), hostOf) == DirectAccess
    ensures BadgeColor(SourceDisplay(Stored(p, id, createdAt), hostOf)) == Gray
  {
    ClassifierLabelBadges();
  }
}

=== FILE: attribution.dfy ===
/** Traffic-source classification done by the consultation form when the
    page loads: the `utm_source` query parameter, when present and
    non-empty, decides the label on its own by case-sensitive substring
    tests; otherwise the lower-cased referrer is tested; with neither the
    label is `direct`. */
module Attribution {
  import opened Wrappers
  import opened Text
  import opened Records

  const NaverAd := "네이버 파워링크"
  const NaverSearch := "네이버 검색"
  const Daangn := "당근"
  const Instagram := "인스타"
  const Other := "기타"
  const Direct := "direct"

  /** Every label the classifier can produce other than a verbatim UTM value. */
  const FixedLabels: set<string> := {NaverAd, NaverSearch, Daangn, Instagram, Other, Direct}

  /** The three case-sensitive keyword groups tested on `utm_source`, in
      the order they are tried. */
  predicate NaverUtm(utm: string) { Contains(utm, "naver") || Contains(utm, "네이버") }
  predicate DaangnUtm(utm: string) { Contains(utm, "daangn") || Contains(utm, "당근") }
  predicate InstagramUtm(utm: string) {
    Contains(utm, "insta") || Contains(utm, "instagram") || Contains(utm, "인스타")
  }

  /** One of the seven keyword tests on `utm_source` passes. */
  predicate HasUtmKeyword(utm: string) { NaverUtm(utm) || DaangnUtm(utm) || InstagramUtm(utm) }

  /** The three site tests on the lower-cased referrer, in the order they
      are tried. */
  predicate NaverSite(referrerLower: string) {
    Contains(referrerLower, "naver.com") || Contains(referrerLower, "search.naver")
  }
  predicate DaangnSite(referrerLower: string) {
    Contains(referrerLower, "daangn.com") || Contains(referrerLower, "당근")
  }
  predicate InstagramSite(referrerLower: string) {
    Contains(referrerLower, "instagram.com") || Contains(referrerLower, "instagr.am")
  }

  /** One of the six site tests on the lower-cased referrer passes. */
  predicate KnownSite(referrerLower: string) {
    NaverSite(referrerLower) || DaangnSite(referrerLower) || InstagramSite(referrerLower)
  }

  /** The label for a non-empty `utm_source`: the first matching group wins,
      in the order naver/네이버, daangn/당근, insta/instagram/인스타; a value
      no test matches is the label itself. */
  function ClassifyUtm(utm: string): (r: string)
    ensures NaverUtm(utm) ==> r == NaverAd
    ensures !NaverUtm(utm) && DaangnUtm(utm) ==> r == Daangn
    ensures !NaverUtm(utm) && !DaangnUtm(utm) && InstagramUtm(utm) ==> r == Instagram
    ensures HasUtmKeyword(utm) ==> r in {NaverAd, Daangn, Instagram}
    ensures !HasUtmKeyword(utm) ==> r == utm
  {
    if NaverUtm(utm) then NaverAd
    else if DaangnUtm(utm) then Daangn
    else if InstagramUtm(utm) then Instagram
    else utm
  }

  /** The label for a non-empty referrer, tested on its lower-cased form:
      the first matching site wins, in the order Naver, Daangn, Instagram,
      and `기타` is given exactly when no site test matches. */
  function ClassifyReferrer(referrerLower: string): (r: string)
    ensures NaverSite(referrerLower) ==> r == NaverSearch
    ensures !NaverSite(referrerLower) && DaangnSite(referrerLower) ==> r == Daangn
    ensures !NaverSite(referrerLower) && !DaangnSite(referrerLower) && InstagramSite(referrerLower) ==> r == Instagram
    ensures r in {NaverSearch, Daangn, Instagram, Other}
    ensures r == Other <==> !KnownSite(referrerLower)
  {
    if NaverSite(referrerLower) then NaverSearch
    else if DaangnSite(referrerLower) then Daangn
    else if InstagramSite(referrerLower) then Instagram
    else Other
  }

  /** The source label for `(utmSource, referrer)`, both already defaulted to
      the empty string when absent. The label is never empty, and it is one
      of the fixed labels unless it is the UTM value passed through. */
  function Classify(utmSource: string, referrer: string): (r: string)
    ensures r != ""
    ensures r in FixedLabels || (utmSource != "" && r == utmSource)
    ensures utmSource == "" && referrer == "" ==> r == Direct
    ensures utmSource == "" && referrer != "" ==> r in {NaverSearch, Daangn, Instagram, Other}
    ensures utmSource == "" && referrer != "" ==> (r == Other <==> !KnownSite(ToLower(referrer)))
  {
    if utmSource != "" then ClassifyUtm(utmSource)
    else if referrer != "" then ClassifyReferrer(ToLower(referrer))
    else Direct
  }

  /** A non-empty UTM value decides the label whatever the referrer is. */
  lemma UtmIgnoresReferrer(utm: string, r1: string, r2: string)
    requires utm != ""
    ensures Classify(utm, r1) == Classify(utm, r2) == ClassifyUtm(utm)
  {
  }

  /** The `instagram` test never decides anything: every value it accepts
      the `insta` test before it has already accepted. */
  lemma InstagramTestSubsumed(utm: string)
    requires Contains(utm, "instagram")
    ensures Contains(utm, "insta")
  {
    assert "instagram" == "insta" + "gram";
    ContainsPrefixOf(utm, "insta", "gram");
  }

  /** Referrer matching ignores ASCII case: a referrer and its lower-cased
      form get the same label. */
  lemma ReferrerCaseInsensitive(referrer: string)
    ensures Classify("", referrer) == Classify("", ToLower(referrer))
  {
    ToLowerIdempotent(referrer);
  }

  /** UTM matching does not ignore case: `naver` is the paid-search label,
      `NAVER` is passed through verbatim. */
  lemma UtmCaseSensitive()
    ensures Classify("naver", "") == NaverAd
    ensures Classify("NAVER", "") == "NAVER"
  {
    ContainsSelf("naver");
    NoLowerCaseMatch("NAVER");
  }

  /** A string of upper-case ASCII letters contains none of the UTM patterns:
      each starts with a character that is not an upper-case letter. */
  lemma NoLowerCaseMatch(s: string)
    requires forall i :: 0 <= i < |s| ==> 'A' <= s[i] <= 'Z'
    ensures !Contains(s, "naver") && !Contains(s, "네이버")
    ensures !Contains(s, "daangn") && !Contains(s, "당근")
    ensures !Contains(s, "insta") && !Contains(s, "instagram") && !Contains(s, "인스타")
  {
    NotContainsMissingChar(s, "naver", 0);
    NotContainsMissingChar(s, "네이버", 0);
    NotContainsMissingChar(s, "daangn", 0);
    NotContainsMissingChar(s, "당근", 0);
    NotContainsMissingChar(s, "insta", 0);
    NotContainsMissingChar(s, "instagram", 0);
    NotContainsMissingChar(s, "인스타", 0);
  }

  /** A UTM value containing `naver` gives the paid-search label whatever the
      referrer, and no UTM value with no referrer gives `direct`. */
  lemma NaverBrandAndEmptyInputs(referrer: string)
    ensures Classify("naver_brand", referrer) == NaverAd
    ensures Classify("", "") == Direct
  {
    assert OccursAt("naver_brand", "naver", 0);
  }

  /** An Instagram profile link with no UTM value gives the Instagram label. */
  lemma InstagramExample(referrer: string)
    requires referrer == "https://www.instagram.com/"
    ensures Classify("", referrer) == Instagram
  {
    InstagramLinkFacts(referrer);
    NoOtherSiteInLink(referrer);
  }

  lemma InstagramLinkFacts(referrer: string)
    requires referrer == "https://www.instagram.com/"
    ensures ToLower(referrer) == referrer
    ensures Contains(referrer, "instagram.com")
  {
    ToLowerNoUpper(referrer);
    assert OccursAt(referrer, "instagram.com", 12);
  }

  lemma NoOtherSiteInLink(referrer: string)
    requires referrer == "https://www.instagram.com/"
    ensures !Contains(referrer, "naver.com") && !Contains(referrer, "search.naver")
    ensures !Contains(referrer, "daangn.com") && !Contains(referrer, "당근")
  {
    NotContainsMissingChar(referrer, "naver.com", 2);
    NotContainsMissingChar(referrer, "search.naver", 9);
    NotContainsMissingChar(referrer, "daangn.com", 0);
    NotContainsMissingChar(referrer, "당근", 0);
  }

  /** The attribution object built on page load (`setReferrerData`): the
      referrer is stored as the `direct` sentinel when empty, empty UTM parameters are
      dropped, and the source is the classifier's label. */
  function Capture(referrer: string, utmSource: Option<string>, utmMedium: Option<string>,
                   utmCampaign: Option<string>): (a: ReferrerData)
    ensures a.referrerUrl == Some(if referrer == "" then NoReferrer else referrer)
    ensures a.utmSource == NonEmpty(utmSource) && a.utmMedium == NonEmpty(utmMedium)
    ensures a.utmCampaign == NonEmpty(utmCampaign)
    ensures a.source.Some? && a.source.value != ""
    ensures a.source == Some(Classify(OrElse(utmSource, ""), referrer))
  {
    ReferrerData(
      Some(OrElse(Some(referrer), NoReferrer)),
      NonEmpty(utmSource),
      NonEmpty(utmMedium),
      NonEmpty(utmCampaign),
      Some(Classify(OrElse(utmSource, ""), referrer)))
  }
}

=== FILE: consultation_form.dfy ===
/** The consultation form on the landing page (`ConsultationForm`): a
    state record and one pure function per event handler. */
module ConsultationForm {
  import opened Wrappers
  import opened Text
  import Phone
  import opened Records
  import Attribution

  /** The edited fields; `region` is `None` while no region is ticked (the
      empty string in the source). */
  datatype FormData = FormData(
    name: string,
    contact: string,
    checkboxSelection: seq<string>,
    region: Option<Region>,
    privacyConsent: bool)

  datatype FormState = FormState(
    data: FormData,
    loading: bool,
    error: string,
    contactError: string,
    success: bool,
    showPrivacyDetail: bool,
    referrerData: ReferrerData)

  const EmptyData := FormData("", "", [], None, false)

  const Initial := FormState(EmptyData, false, "", "", false, false, NoReferrerData)

  const NameRequired := "이름을 입력해주세요."
  const ContactRequired := "연락처를 입력해주세요."
  const InvalidPhone := "올바른 전화번호 형식이 아니에요"
  const RegionRequired := "지역을 선택해주세요."
  const ConsentRequired := "개인정보 수집 및 이용 동의는 필수입니다."
  const SubmitFailed := "신청에 실패했습니다. 다시 시도해주세요."

  /** The page-load effect: records the attribution data, nothing else; the
      recorded data always carries a non-empty source label. */
  function Mount(s: FormState, referrer: string, utmSource: Option<string>,
                 utmMedium: Option<string>, utmCampaign: Option<string>): (t: FormState)
    ensures t.referrerData == Attribution.Capture(referrer, utmSource, utmMedium, utmCampaign)
    ensures t.referrerData.source.Some? && t.referrerData.source.value != ""
    ensures t.(referrerData := s.referrerData) == s
  {
    s.(referrerData := Attribution.Capture(referrer, utmSource, utmMedium, utmCampaign))
  }

  function ChangeName(s: FormState, v: string): (t: FormState)
    ensures t.data.name == v && t == s.(data := s.data.(name := v))
  {
    s.(data := s.data.(name := v))
  }

  /** `handlePhoneChange`: the field holds the formatted input; the inline
      error is set only for a complete (13-character) invalid number,
      cleared for a valid or empty one, and otherwise left as it was. */
  function ChangePhone(s: FormState, v: string): (t: FormState)
    ensures t.data == s.data.(contact := Phone.Format(v))
    ensures t == s.(data := t.data, contactError := t.contactError)
    ensures |t.data.contact| == 13 && !Phone.Validate(t.data.contact) ==> t.contactError == InvalidPhone
    ensures Phone.Validate(t.data.contact) || t.data.contact == "" ==> t.contactError == ""
    ensures |t.data.contact| != 13 && t.data.contact != "" ==> t.contactError == s.contactError
  {
    var f := Phone.Format(v);
    var err :=
      if |f| > 0 && |f| == 13 then (if !Phone.Validate(f) then InvalidPhone else "")
      else if |f| == 0 then ""
      else s.contactError;
    s.(data := s.data.(contact := f), contactError := err)
  }

  /** A region checkbox: ticking the ticked region clears it, ticking any
      other selects it. */
  function ToggleRegion(s: FormState, r: Region): (t: FormState)
    ensures s.data.region == Some(r) ==> t.data.region == None
    ensures s.data.region != Some(r) ==> t.data.region == Some(r)
    ensures t == s.(data := s.data.(region := t.data.region))
  {
    s.(data := s.data.(region := if s.data.region == Some(r) then None else Some(r)))
  }

  /** Clicking the same box twice restores the state when no region or that
      region was ticked before; from another ticked region it ends with none. */
  lemma ToggleRegionTwice(s: FormState, r: Region)
    ensures s.data.region == None || s.data.region == Some(r) ==> ToggleRegion(ToggleRegion(s, r), r) == s
    ensures s.data.region.Some? && s.data.region != Some(r) ==> ToggleRegion(ToggleRegion(s, r), r).data.region == None
  {
  }

  function SetConsent(s: FormState, checked: bool): (t: FormState)
    ensures t.data.privacyConsent == checked && t == s.(data := s.data.(privacyConsent := checked))
  {
    s.(data := s.data.(privacyConsent := checked))
  }

  function TogglePrivacyDetail(s: FormState): (t: FormState)
    ensures t.showPrivacyDetail != s.showPrivacyDetail
    ensures t == s.(showPrivacyDetail := t.showPrivacyDetail)
  {
    s.(showPrivacyDetail := !s.showPrivacyDetail)
  }

  /** Two clicks on the privacy-detail link leave the form as it was. */
  lemma TogglePrivacyDetailTwice(s: FormState)
    ensures TogglePrivacyDetail(TogglePrivacyDetail(s)) == s
  {
  }

  /** The validation in `handleSubmit`: the message of the first failing
      check, in the order blank name, blank contact, invalid phone, no
      region, no consent; `None` when all pass. */
  function FirstFailure(d: FormData): (r: Option<string>)
    ensures IsBlank(d.name) ==> r == Some(NameRequired)
    ensures !IsBlank(d.name) && IsBlank(d.contact) ==> r == Some(ContactRequired)
    ensures !IsBlank(d.name) && !IsBlank(d.contact) && !Phone.Validate(d.contact) ==> r == Some(InvalidPhone)
    ensures !IsBlank(d.name) && Phone.Validate(d.contact) && d.region == None ==> r == Some(RegionRequired)
    ensures !IsBlank(d.name) && Phone.Validate(d.contact) && d.region != None && !d.privacyConsent
            ==> r == Some(ConsentRequired)
    ensures r == None <==> !IsBlank(d.name) && Phone.Validate(d.contact) && d.region != None && d.privacyConsent
  {
    if Trim(d.name) == "" then Some(NameRequired)
    else if Trim(d.contact) == "" then Some(ContactRequired)
    else if !Phone.Validate(d.contact) then Some(InvalidPhone)
    else if d.region.None? then Some(RegionRequired)
    else if !d.privacyConsent then Some(ConsentRequired)
    else None
  }

  /** The form fields an insert payload carries. */
  function Entered(p: NewApplication): FormData {
    FormData(p.name, p.contact, p.checkboxSelection, Some(p.region), p.privacyConsent)
  }

  /** The insert payload: it carries exactly the form's fields and the
      attribution data recorded on page load. */
  function Payload(s: FormState): (p: NewApplication)
    requires s.data.region.Some?
    ensures Entered(p) == s.data
    ensures p.referrerData == s.referrerData
  {
    NewApplication(s.data.name, s.data.contact, s.data.checkboxSelection, s.data.region.value,
                   s.data.privacyConsent, s.referrerData)
  }

  /** The state after `handleSubmit` has finished, and the insert it issued. */
  datatype SubmitResult = SubmitResult(state: FormState, insert: Option<NewApplication>)

  /** `handleSubmit`, from the click to the `finally` block. `outcome` is what
      the datastore answers and only matters when an insert is issued. An
      insert is issued exactly when every check passes, and then carries
      consent, a valid phone number and a region; a failed check or insert
      leaves `success` as it was and shows the message. */
  function Submit(s: FormState, outcome: Outcome): (r: SubmitResult)
    ensures r.insert.Some? <==> FirstFailure(s.data) == None
    ensures r.insert.Some? ==> r.insert.value.privacyConsent && Phone.Validate(r.insert.value.contact)
    ensures r.insert.Some? ==> s.data.region.Some? && r.insert.value == Payload(s)
    ensures r.state == s.(loading := false, error := r.state.error, success := r.state.success)
    ensures FirstFailure(s.data).Some? ==>
      r.state.error == FirstFailure(s.data).value && r.state.success == s.success
    ensures r.insert.Some? && outcome == Done ==> r.state.success && r.state.error == ""
    ensures r.insert.Some? && outcome.Failed? ==>
      r.state.success == s.success && r.state.error == OrElse(Some(outcome.message), SubmitFailed)
    ensures r.state.error == "" <==> r.insert.Some? && outcome == Done
  {
    match FirstFailure(s.data)
    case Some(msg) => SubmitResult(s.(loading := false, error := msg), None)
    case None =>
      var p := Payload(s);
      match outcome
      case Done => SubmitResult(s.(loading := false, error := "", success := true), Some(p))
      case Failed(m) => SubmitResult(s.(loading := false, error := OrElse(Some(m), SubmitFailed)), Some(p))
  }

  /** The state shown while the insert is in flight: error cleared, busy. */
  function InFlight(s: FormState): (t: FormState)
    ensures t.loading && t.error == ""
    ensures SubmitDisabled(t)
  {
    s.(error := "", loading := true)
  }

  /** The submit button's `disabled` expression. */
  predicate SubmitDisabled(s: FormState) {
    || s.loading
    || s.data.name == ""
    || s.data.contact == ""
    || s.data.region.None?
    || !s.data.privacyConsent
    || s.contactError != ""
  }

  /** `handleCloseSuccess`: hides the confirmation and restores the initial
      fields; the error texts, busy flag, privacy panel and attribution
      data are kept. */
  function CloseSuccess(s: FormState): (t: FormState)
    ensures !t.success && t.data == Initial.data
    ensures t == s.(success := false, data := EmptyData)
  {
    s.(success := false, data := EmptyData)
  }

  // ---------------------------------------------------------------------
  // The form as a state machine

  datatype Action =
    | PageLoad(referrer: string, utmSource: Option<string>, utmMedium: Option<string>, utmCampaign: Option<string>)
    | EditName(name: string)
    | EditPhone(input: string)
    | ClickRegion(region: Region)
    | ClickConsent(checked: bool)
    | ClickPrivacyDetail
    | SubmitForm(outcome: Outcome)
    | ConfirmSuccess

  function Step(s: FormState, a: Action): FormState {
    match a
    case PageLoad(ref, src, med, camp) => Mount(s, ref, src, med, camp)
    case EditName(v) => ChangeName(s, v)
    case EditPhone(v) => ChangePhone(s, v)
    case ClickRegion(r) => ToggleRegion(s, r)
    case ClickConsent(b) => SetConsent(s, b)
    case ClickPrivacyDetail => TogglePrivacyDetail(s)
    case SubmitForm(o) => Submit(s, o).state
    case ConfirmSuccess => CloseSuccess(s)
  }

  function Run(s: FormState, actions: seq<Action>): FormState
    decreases |actions|
  {
    if |actions| == 0 then s else Run(Step(s, actions[0]), actions[1..])
  }

  /** What holds in every state the form can reach: the contact field is
      always formatter output, and the inline phone error, when shown, is
      the invalid-number message about a contact that is indeed invalid. */
  predicate Inv(s: FormState) {
    && Phone.Format(s.data.contact) == s.data.contact
    && (s.contactError == "" || s.contactError == InvalidPhone)
    && (s.contactError != "" ==> !Phone.Validate(s.data.contact))
  }

  lemma InitialInv()
    ensures Inv(Initial)
  {
    assert Phone.Digits("") == "";
  }

  lemma StepPreservesInv(s: FormState, a: Action)
    requires Inv(s)
    ensures Inv(Step(s, a))
  {
    match a
    case EditPhone(v) =>
      Phone.FormatIdempotent(v);
    case ConfirmSuccess =>
      assert Phone.Digits("") == "";
    case _ =>
  }

  /** Every state reached from the initial one by any sequence of events
      satisfies the invariant. */
  lemma {:induction false} RunPreservesInv(s: FormState, actions: seq<Action>)
    requires Inv(s)
    ensures Inv(Run(s, actions))
    decreases |actions|
  {
    if |actions| > 0 {
      StepPreservesInv(s, actions[0]);
      RunPreservesInv(Step(s, actions[0]), actions[1..]);
    }
  }

  /** In any reachable state, a visible phone error means submitting would be
      refused (by the phone check or an earlier one). */
  lemma ReachableErrorBlocksSubmit(actions: seq<Action>)
    ensures var s := Run(Initial, actions);
      s.contactError != "" ==> FirstFailure(s.data).Some?
  {
    InitialInv();
    RunPreservesInv(Initial, actions);
  }

  /** Passing every check implies the fields the button tests are filled, so
      an idle form without an inline error that would pass is enabled. */
  lemma PassingChecksEnableButton(s: FormState)
    requires FirstFailure(s.data) == None && !s.loading && s.contactError == ""
    ensures !SubmitDisabled(s)
  {
  }

  /** The button is weaker than the checks: with a name of one space it is
      enabled, and submitting is refused. */
  lemma EnabledButBlankName()
    ensures var s := Initial.(data := FormData(" ", "010-1234-5678", [], Some(Seoul), true));
      !SubmitDisabled(s) && FirstFailure(s.data) == Some(NameRequired)
  {
    assert IsBlank(" ");
  }

  /** Likewise with a half-typed number, which raises no inline error. */
  lemma EnabledButShortNumber()
    ensures var s := Initial.(data := FormData("홍길동", "010-1234", [], Some(Seoul), true));
      !SubmitDisabled(s) && FirstFailure(s.data) == Some(InvalidPhone)
  {
    var name := "홍길동";
    var c := "010-1234";
    assert !IsJsSpace(name[0]);
    assert !IsJsSpace(c[0]);
    assert !Phone.Validate(c);
  }
}

=== FILE: consultation_modal.dfy ===
/** The consultation modal (`ConsultationModal`): a second, laxer form with
    the same fields, the same formatter and its own event handlers. */
module ConsultationModal {
  import opened Wrappers
  import opened Text
  import Phone
  import opened Records
  import ConsultationForm

  /** The modal's fields; its region is never empty. */
  datatype ModalData = ModalData(
    name: string,
    contact: string,
    checkboxSelection: seq<string>,
    region: Region,
    privacyConsent: bool)

  datatype ModalState = ModalState(
    data: ModalData,
    loading: bool,
    error: string,
    success: bool,
    showPrivacyDetail: bool)

  const Defaults := ModalData("", "", [], Seoul, false)

  const Initial := ModalState(Defaults, false, "", false, false)

  /** The effect on `isOpen`: closing the modal resets the fields to their
      defaults, clears the error, the success flag and the privacy panel,
      and leaves the busy flag; opening it changes no state. */
  function SetOpen(s: ModalState, isOpen: bool): (t: ModalState)
    ensures isOpen ==> t == s
    ensures !isOpen ==> t.data == Defaults && t.error == "" && !t.success && !t.showPrivacyDetail
    ensures !isOpen ==> t.loading == s.loading
  {
    if isOpen then s
    else s.(data := Defaults, error := "", success := false, showPrivacyDetail := false)
  }

  function ChangeName(s: ModalState, v: string): (t: ModalState)
    ensures t.data.name == v && t == s.(data := s.data.(name := v))
  {
    s.(data := s.data.(name := v))
  }

  /** `handlePhoneChange`: the field holds formatter output, which another
      pass of the formatter leaves as it is; the modal keeps no inline error,
      so nothing else changes. */
  function ChangePhone(s: ModalState, v: string): (t: ModalState)
    ensures t.data.contact == Phone.Format(v)
    ensures Phone.Format(t.data.contact) == t.data.contact
    ensures t.data.(contact := s.data.contact) == s.data && t.(data := s.data) == s
  {
    Phone.FormatIdempotent(v);
    s.(data := s.data.(contact := Phone.Format(v)))
  }

  /** A region button selects its region and changes nothing else; no button
      clears the selection. */
  function SelectRegion(s: ModalState, r: Region): (t: ModalState)
    ensures t.data.region == r
    ensures t.data.(region := s.data.region) == s.data && t.(data := s.data) == s
  {
    s.(data := s.data.(region := r))
  }

  /** The last click wins, and clicking the selected region changes nothing. */
  lemma LastRegionWins(s: ModalState, a: Region, b: Region)
    ensures SelectRegion(SelectRegion(s, a), b) == SelectRegion(s, b)
    ensures SelectRegion(s, s.data.region) == s
  {
  }

  function SetConsent(s: ModalState, checked: bool): (t: ModalState)
    ensures t.data.privacyConsent == checked && t == s.(data := s.data.(privacyConsent := checked))
  {
    s.(data := s.data.(privacyConsent := checked))
  }

  /** The privacy-detail link opens the panel; its two buttons close it. */
  function SetPrivacyDetail(s: ModalState, show: bool): (t: ModalState)
    ensures t.showPrivacyDetail == show && t == s.(showPrivacyDetail := show)
  {
    s.(showPrivacyDetail := show)
  }

  /** The modal's checks: blank name, blank contact, no consent, in that
      order. There is no phone-pattern check and no region check. */
  function FirstFailure(d: ModalData): (r: Option<string>)
    ensures IsBlank(d.name) ==> r == Some(ConsultationForm.NameRequired)
    ensures !IsBlank(d.name) && IsBlank(d.contact) ==> r == Some(ConsultationForm.ContactRequired)
    ensures !IsBlank(d.name) && !IsBlank(d.contact) && !d.privacyConsent ==> r == Some(ConsultationForm.ConsentRequired)
    ensures r == None <==> !IsBlank(d.name) && !IsBlank(d.contact) && d.privacyConsent
  {
    if Trim(d.name) == "" then Some(ConsultationForm.NameRequired)
    else if Trim(d.contact) == "" then Some(ConsultationForm.ContactRequired)
    else if !d.privacyConsent then Some(ConsultationForm.ConsentRequired)
    else None
  }

  /** The modal fields an insert payload carries. */
  function Entered(p: NewApplication): ModalData {
    ModalData(p.name, p.contact, p.checkboxSelection, p.region, p.privacyConsent)
  }

  /** The insert payload: it carries exactly the modal's fields, as they are,
      and no attribution data. */
  function Payload(d: ModalData): (p: NewApplication)
    ensures Entered(p) == d
    ensures p.referrerData == NoReferrerData
  {
    NewApplication(d.name, d.contact, d.checkboxSelection, d.region, d.privacyConsent, NoReferrerData)
  }

  datatype SubmitResult = SubmitResult(state: ModalState, insert: Option<NewApplication>)

  /** `handleSubmit`. The insert is issued exactly when the three checks
      pass; a failed check or insert leaves `success` false-or-unchanged and
      shows the message; a successful one sets `success`. */
  function Submit(s: ModalState, outcome: Outcome): (r: SubmitResult)
    ensures r.insert.Some? <==> FirstFailure(s.data) == None
    ensures r.insert.Some? ==> r.insert.value == Payload(s.data) && r.insert.value.privacyConsent
    ensures r.state == s.(loading := false, error := r.state.error, success := r.state.success)
    ensures FirstFailure(s.data).Some? ==>
      r.state.error == FirstFailure(s.data).value && r.state.success == s.success
    ensures r.insert.Some? && outcome == Done ==> r.state.success && r.state.error == ""
    ensures r.insert.Some? && outcome.Failed? ==>
      r.state.success == s.success && r.state.error == OrElse(Some(outcome.message), ConsultationForm.SubmitFailed)
  {
    match FirstFailure(s.data)
    case Some(msg) => SubmitResult(s.(loading := false, error := msg), None)
    case None =>
      var p := Payload(s.data);
      match outcome
      case Done => SubmitResult(s.(loading := false, error := "", success := true), Some(p))
      case Failed(m) =>
        SubmitResult(s.(loading := false, error := OrElse(Some(m), ConsultationForm.SubmitFailed)), Some(p))
  }

  /** The submit button's `disabled` expression. */
  predicate SubmitDisabled(s: ModalState) {
    s.loading || s.success
  }

  // ---------------------------------------------------------------------
  // The modal as a state machine

  datatype Action =
    | Open
    | Close
    | EditName(name: string)
    | EditPhone(input: string)
    | ClickRegion(region: Region)
    | ClickConsent(checked: bool)
    | ShowPrivacyDetail(show: bool)
    | SubmitForm(outcome: Outcome)

  function Step(s: ModalState, a: Action): ModalState {
    match a
    case Open => SetOpen(s, true)
    case Close => SetOpen(s, false)
    case EditName(v) => ChangeName(s, v)
    case EditPhone(v) => ChangePhone(s, v)
    case ClickRegion(r) => SelectRegion(s, r)
    case ClickConsent(b) => SetConsent(s, b)
    case ShowPrivacyDetail(b) => SetPrivacyDetail(s, b)
    case SubmitForm(o) => Submit(s, o).state
  }

  function Run(s: ModalState, actions: seq<Action>): ModalState
    decreases |actions|
  {
    if |actions| == 0 then s else Run(Step(s, actions[0]), actions[1..])
  }

  /** The contact field only ever holds formatter output, and the modal is
      never busy between events. */
  predicate Inv(s: ModalState) {
    Phone.Format(s.data.contact) == s.data.contact && !s.loading
  }

  lemma StepPreservesInv(s: ModalState, a: Action)
    requires Inv(s)
    ensures Inv(Step(s, a))
  {
    match a
    case EditPhone(v) => Phone.FormatIdempotent(v);
    case Close => assert Phone.Digits("") == "";
    case _ =>
  }

  lemma {:induction false} RunPreservesInv(s: ModalState, actions: seq<Action>)
    requires Inv(s)
    ensures Inv(Run(s, actions))
    decreases |actions|
  {
    if |actions| > 0 {
      StepPreservesInv(s, actions[0]);
      RunPreservesInv(Step(s, actions[0]), actions[1..]);
    }
  }

  /** In every reachable state the button is disabled exactly after a
      successful submission not yet reset by closing. */
  lemma {:induction false} ReachableDisabledIffSuccess(actions: seq<Action>)
    ensures var s := Run(Initial, actions); SubmitDisabled(s) <==> s.success
  {
    assert Phone.Digits("") == "";
    RunPreservesInv(Initial, actions);
  }

  /** Both components store the same formatted text for the same keystrokes. */
  lemma SameFormatterInBothForms(f: ConsultationForm.FormState, m: ModalState, v: string)
    ensures ChangePhone(m, v).data.contact == ConsultationForm.ChangePhone(f, v).data.contact
    ensures ChangePhone(m, v).data.contact == Phone.Format(v)
  {
  }

  /** The modal's checks are implied by the form's: whatever the form would
      insert, the modal would insert too. */
  lemma FormChecksImplyModalChecks(d: ConsultationForm.FormData)
    requires d.region.Some?
    ensures ConsultationForm.FirstFailure(d) == None ==>
      FirstFailure(ModalData(d.name, d.contact, d.checkboxSelection, d.region.value, d.privacyConsent)) == None
  {
    if ConsultationForm.FirstFailure(d) == None {
      Phone.ValidIsNotBlank(d.contact);
    }
  }

  /** The converse fails: a three-digit contact with a name and consent is
      accepted by the modal and refused by the form. */
  lemma ShortContactAcceptedByModalOnly()
    ensures FirstFailure(ModalData("홍길동", "010", [], Seoul, true)) == None
    ensures ConsultationForm.FirstFailure(ConsultationForm.FormData("홍길동", "010", [], Some(Seoul), true))
            == Some(ConsultationForm.InvalidPhone)
  {
    var name := "홍길동";
    var c := "010";
    assert !IsJsSpace(name[0]);
    assert !IsJsSpace(c[0]);
  }

  /** A failed insert never shows the success message. */
  lemma FailedInsertKeepsSuccessOff(s: ModalState, message: string)
    requires !s.success
    ensures var r := Submit(s, Failed(message));
      !r.state.success && r.state.error != ""
  {
  }
}

=== FILE: dashboard_page.dfy ===
/** The server-side gate of the admin dashboard (`app/admin/dashboard/page.tsx`)
    and the login page's reaction to the `error` query parameter it
    redirects with (`app/admin/login/page.tsx`). */
module DashboardPage {
  import opened Wrappers
  import opened Text
  import opened AdminConfig

  /** The authenticated user as the session reports it; the email may be
      absent. */
  datatype User = User(email: Option<string>)

  const LoginPath: string := "/admin/login"
  const UnauthorizedQuery: string := "?error="
  const UnauthorizedCode: string := "unauthorized"

  /** What the page does with a request. */
  datatype Decision = RedirectToLogin | RedirectUnauthorized | RenderDashboard {
    /** The redirect target, if the decision is a redirect. */
    function Location(): Option<string> {
      match this
      case RedirectToLogin => Some(LoginPath)
      case RedirectUnauthorized => Some(LoginPath + UnauthorizedQuery + UnauthorizedCode)
      case RenderDashboard => None
    }
  }

  /** No session sends the visitor to the login page; a session whose email
      the allow-list refuses sends them there with the `unauthorized` code;
      only an admitted email sees the dashboard. */
  function Decide(user: Option<User>, admins: seq<string>): (d: Decision)
    ensures d == RedirectToLogin <==> user.None?
    ensures d == RedirectUnauthorized <==> user.Some? && !IsAdminEmail(admins, user.value.email)
    ensures d == RenderDashboard <==> user.Some? && IsAdminEmail(admins, user.value.email)
  {
    if user.None? then RedirectToLogin
    else if !IsAdminEmail(admins, user.value.email) then RedirectUnauthorized
    else RenderDashboard
  }

  /** `searchParams.get('error')` for a path on the login page: the text
      after `?error=`, if the path carries it. */
  function ErrorParam(path: string): (r: Option<string>)
    ensures r.Some? ==> path == LoginPath + UnauthorizedQuery + r.value
  {
    var prefix := LoginPath + UnauthorizedQuery;
    if |prefix| <= |path| && path[..|prefix|] == prefix then
      assert path == path[..|prefix|] + path[|prefix|..];
      Some(path[|prefix|..])
    else None
  }

  /** The parameter written after `?error=` is the parameter read back. */
  lemma ErrorParamReadsBack(v: string)
    ensures ErrorParam(LoginPath + UnauthorizedQuery + v) == Some(v)
  {
    var prefix := LoginPath + UnauthorizedQuery;
    assert (prefix + v)[..|prefix|] == prefix;
    assert (prefix + v)[|prefix|..] == v;
  }

  const AdminPermissionMessage: string := "어드민 권한이 없습니다."

  /** The login page's effect on mount: only the `unauthorized` code sets
      the permission message; any other value, or none, leaves the error
      as it was. */
  function ErrorOnLoad(errorParam: Option<string>, current: string): (r: string)
    ensures errorParam == Some(UnauthorizedCode) ==> r == AdminPermissionMessage
    ensures errorParam != Some(UnauthorizedCode) ==> r == current
  {
    if errorParam == Some(UnauthorizedCode) then AdminPermissionMessage else current
  }

  /** The error text a freshly loaded login page shows after a redirect. */
  function ShownAfterRedirect(d: Decision): string
    requires d.Location().Some?
  {
    ErrorOnLoad(ErrorParam(d.Location().value), "")
  }

  /** The redirect round trip: the unauthorized redirect, and only it,
      makes the login page show the permission message; the plain redirect
      leaves the page without an error. */
  lemma RedirectMessages(d: Decision)
    requires d.Location().Some?
    ensures d == RedirectUnauthorized ==> ShownAfterRedirect(d) == AdminPermissionMessage
    ensures d == RedirectToLogin ==> ShownAfterRedirect(d) == ""
  {
    var prefix := LoginPath + UnauthorizedQuery;
    if d == RedirectUnauthorized {
      var path := d.Location().value;
      assert path[..|prefix|] == prefix;
      assert path[|prefix|..] == UnauthorizedCode;
    } else if d == RedirectToLogin {
      assert |LoginPath| < |prefix|;
    }
  }

  /** A signed-in user without an email is always refused, whatever the
      allow-list. */
  lemma EmaillessUserRefused(admins: seq<string>)
    ensures Decide(Some(User(None)), admins) == RedirectUnauthorized
    ensures Decide(Some(User(Some(""))), admins) == RedirectUnauthorized
  {
  }

  /** With the allow-list unset, every user with an email is let in. */
  lemma UnsetListLetsEveryoneIn(env: Option<string>, e: string)
    requires !Truthy(env) && e != ""
    ensures Decide(Some(User(Some(e))), ParseAdminEmails(env)) == RenderDashboard
  {
    UnsetListAdmitsEveryone(env, e);
  }
}

=== FILE: phone.dfy ===
/** The phone-number normaliser and validator shared by the consultation
    form and the consultation modal (`formatPhoneNumber`,
    `validatePhoneNumber`). Both components carry the same formatter code;
    it is defined once here. */
module Phone {
  import opened Text

  predicate NotDash(c: char) {
    c != '-'
  }

  /** `value.replace(/[^\d]/g, '')`: the ASCII digits of `value`, in order
      (`\d` without the `u` flag matches only `0`-`9`). */
  function Digits(s: string): string {
    Keep(s, IsDigit)
  }

  function RemoveDashes(s: string): string {
    Keep(s, NotDash)
  }

  function Min(a: int, b: int): int {
    if a <= b then a else b
  }

  /** `formatPhoneNumber`: the digits of the input, cut to eleven, with a
      dash after the third and after the seventh digit when there are that
      many. */
  function Format(value: string): (r: string)
    ensures |r| <= 13
    ensures forall i :: 0 <= i < |r| ==> IsDigit(r[i]) || r[i] == '-'
  {
    var n := Digits(value);
    if |n| <= 3 then n
    else if |n| <= 7 then n[..3] + "-" + n[3..]
    else n[..3] + "-" + n[3..7] + "-" + n[7..Min(11, |n|)]
  }

  // ---------------------------------------------------------------------
  // The validator: the regular expression /^010-\d{4}-\d{4}$/

  /** One single-character item of a regular expression. */
  datatype Token = Lit(c: char) | AnyDigit

  predicate Accepts(t: Token, c: char) {
    match t
    case Lit(x) => c == x
    case AnyDigit => IsDigit(c)
  }

  /** Anchored match `^p$` of a pattern made only of single-character items. */
  predicate Matches(p: seq<Token>, s: string)
    decreases |p|
  {
    if |p| == 0 then |s| == 0
    else |s| > 0 && Accepts(p[0], s[0]) && Matches(p[1..], s[1..])
  }

  /** `010-\d{4}-\d{4}` unrolled. */
  const PhonePattern: seq<Token> := [
    Lit('0'), Lit('1'), Lit('0'), Lit('-'),
    AnyDigit, AnyDigit, AnyDigit, AnyDigit, Lit('-'),
    AnyDigit, AnyDigit, AnyDigit, AnyDigit
  ]


  /** An anchored match is a position-by-position match of equal lengths. */
  lemma {:induction false} MatchesPointwise(p: seq<Token>, s: string)
    ensures Matches(p, s) <==> |s| == |p| && forall i :: 0 <= i < |p| ==> Accepts(p[i], s[i])
    decreases |p|
  {
    if |p| > 0 && |s| > 0 {
      MatchesPointwise(p[1..], s[1..]);
      if |s| == |p| && forall i :: 0 <= i < |p| ==> Accepts(p[i], s[i]) {
        assert forall i :: 0 <= i < |p| - 1 ==> Accepts(p[1..][i], s[1..][i]) by {
          forall i | 0 <= i < |p| - 1 ensures Accepts(p[1..][i], s[1..][i]) {
            assert Accepts(p[i + 1], s[i + 1]);
          }
        }
      }
    }
  }

  /** Thirteen characters, `010-` first, a dash at index 8 and a digit at
      every other position. */
  predicate PhoneShape(s: string) {
    && |s| == 13
    && s[..4] == "010-"
    && s[8] == '-'
    && (forall i :: 4 <= i < 13 && i != 8 ==> IsDigit(s[i]))
  }

  /** `validatePhoneNumber`: `/^010-\d{4}-\d{4}$/.test(phone)`, stated by
      position; `ValidateIsRegexMatch` shows it is the anchored match. */
  predicate Validate(phone: string) {
    PhoneShape(phone)
  }

  /** The pattern's item at each position. */
  function PatternToken(i: int): Token {
    if i == 0 || i == 2 then Lit('0')
    else if i == 1 then Lit('1')
    else if i == 3 || i == 8 then Lit('-')
    else AnyDigit
  }

  lemma PhonePatternTokens()
    ensures |PhonePattern| == 13
    ensures forall i :: 0 <= i < 13 ==> PhonePattern[i] == PatternToken(i)
  {
  }

  /** A string of the right shape meets every item of the pattern. */
  lemma ShapeMeetsPattern(s: string)
    requires PhoneShape(s)
    ensures forall i :: 0 <= i < 13 ==> Accepts(PatternToken(i), s[i])
  {
    forall i | 0 <= i < 13 ensures Accepts(PatternToken(i), s[i]) {
      if i < 4 {
        assert s[i] == s[..4][i];
      }
    }
  }

  /** A string of thirteen characters meeting every item has the shape. */
  lemma PatternGivesShape(s: string)
    requires |s| == 13
    requires forall i :: 0 <= i < 13 ==> Accepts(PatternToken(i), s[i])
    ensures PhoneShape(s)
  {
    assert Accepts(PatternToken(0), s[0]) && Accepts(PatternToken(1), s[1]);
    assert Accepts(PatternToken(2), s[2]) && Accepts(PatternToken(3), s[3]);
    assert Accepts(PatternToken(8), s[8]);
    assert s[..4] == [s[0], s[1], s[2], s[3]];
    forall i | 4 <= i < 13 && i != 8 ensures IsDigit(s[i]) {
      assert Accepts(PatternToken(i), s[i]);
    }
  }

  /** The pattern matches exactly the thirteen-character strings meeting
      every item. */
  lemma MatchesByToken(s: string)
    ensures Matches(PhonePattern, s) <==>
      |s| == 13 && forall i :: 0 <= i < 13 ==> Accepts(PatternToken(i), s[i])
  {
    MatchesPointwise(PhonePattern, s);
    PhonePatternTokens();
  }

  /** The positional statement is the regular expression: the validator
      accepts exactly the strings the pattern matches from end to end. */
  lemma ValidateIsRegexMatch(s: string)
    ensures Validate(s) <==> Matches(PhonePattern, s)
  {
    MatchesByToken(s);
    if Validate(s) {
      ShapeMeetsPattern(s);
    } else if |s| == 13 && forall i :: 0 <= i < 13 ==> Accepts(PatternToken(i), s[i]) {
      PatternGivesShape(s);
    }
  }

  /** A valid number starts with `0`, so it is never blank. */
  lemma ValidIsNotBlank(s: string)
    requires Validate(s)
    ensures !IsBlank(s)
  {
    assert s[0] == s[..4][0] == '0';
    assert !IsJsSpace(s[0]);
  }

  // ---------------------------------------------------------------------
  // Properties of the formatter

  /** Filtering with a filter that drops the dash removes a lone dash. */
  lemma KeepDash(p: char -> bool)
    requires !p('-')
    ensures Keep("-", p) == ""
  {
    assert "-"[1..] == "";
  }

  /** Filtering with a filter that drops the dash filters around a dash. */
  lemma KeepAroundDash(a: string, b: string, p: char -> bool)
    requires !p('-')
    ensures Keep(a + "-" + b, p) == Keep(a, p) + Keep(b, p)
  {
    KeepConcat(a + "-", b, p);
    KeepConcat(a, "-", p);
    KeepDash(p);
  }

  /** Filtering a dash-joined pair of strings whose characters pass the
      filter, with a filter that drops the dash, drops exactly the dash. */
  lemma KeepDashed(a: string, b: string, p: char -> bool)
    requires forall i :: 0 <= i < |a| ==> p(a[i])
    requires forall i :: 0 <= i < |b| ==> p(b[i])
    requires !p('-')
    ensures Keep(a + "-" + b, p) == a + b
  {
    KeepAroundDash(a, b, p);
    KeepAll(a, p);
    KeepAll(b, p);
  }

  /** The same for three pieces joined by two dashes. */
  lemma KeepDashed3(a: string, b: string, c: string, p: char -> bool)
    requires forall i :: 0 <= i < |a| ==> p(a[i])
    requires forall i :: 0 <= i < |b| ==> p(b[i])
    requires forall i :: 0 <= i < |c| ==> p(c[i])
    requires !p('-')
    ensures Keep(a + "-" + b + "-" + c, p) == a + b + c
  {
    KeepAroundDash(a + "-" + b, c, p);
    KeepDashed(a, b, p);
    KeepAll(c, p);
  }

  lemma DigitsOfDigits(s: string)
    requires AllDigits(s)
    ensures Digits(s) == s && RemoveDashes(s) == s
  {
    KeepAll(s, IsDigit);
    KeepAll(s, NotDash);
  }

  /** The formatter keeps the first `min(11, n)` digits of the input and
      nothing else: removing its dashes, or keeping its digits, gives back
      exactly those digits. */
  lemma FormatKeepsDigits(x: string)
    ensures var n := Digits(x);
      && RemoveDashes(Format(x)) == n[..Min(11, |n|)]
      && Digits(Format(x)) == n[..Min(11, |n|)]
  {
    var n := Digits(x);
    if |n| <= 3 {
      DigitsOfDigits(n);
      assert n[..Min(11, |n|)] == n;
    } else if |n| <= 7 {
      KeepDashed(n[..3], n[3..], IsDigit);
      KeepDashed(n[..3], n[3..], NotDash);
      assert n[..3] + n[3..] == n == n[..Min(11, |n|)];
    } else {
      var m := Min(11, |n|);
      KeepDashed3(n[..3], n[3..7], n[7..m], IsDigit);
      KeepDashed3(n[..3], n[3..7], n[7..m], NotDash);
      assert n[..3] + n[3..7] == n[..7];
      assert n[..7] + n[7..m] == n[..m];
    }
  }

  /** `r` has a dash exactly at the positions in `ps`. */
  predicate DashesExactlyAt(r: string, ps: set<int>) {
    forall i :: 0 <= i < |r| ==> (r[i] == '-' <==> i in ps)
  }

  /** Where the dashes go: none up to three digits, one at index 3 for four
      to seven digits, two at indices 3 and 8 from eight digits on; the
      output is never longer than thirteen characters. */
  lemma FormatDashes(x: string)
    ensures var n := |Digits(x)|; var r := Format(x);
      && |r| <= 13
      && (n <= 3 ==> |r| == n && DashesExactlyAt(r, {}))
      && (4 <= n <= 7 ==> |r| == n + 1 && DashesExactlyAt(r, {3}))
      && (n >= 8 ==> |r| == Min(n, 11) + 2 && DashesExactlyAt(r, {3, 8}))
  {
    var n := Digits(x);
    var r := Format(x);
    if 4 <= |n| <= 7 {
      forall i | 0 <= i < |r| ensures r[i] == '-' <==> i == 3 {
        if i < 3 { assert r[i] == n[i]; }
        else if i > 3 { assert r[i] == n[i - 1]; }
      }
    } else if |n| >= 8 {
      var m := Min(11, |n|);
      forall i | 0 <= i < |r| ensures r[i] == '-' <==> i == 3 || i == 8 {
        if i < 3 { assert r[i] == n[i]; }
        else if 3 < i < 8 { assert r[i] == n[i - 1]; }
        else if i > 8 { assert r[i] == n[i - 2]; }
      }
    }
  }

  /** Formatting an already formatted number changes nothing. */
  lemma FormatIdempotent(x: string)
    ensures Format(Format(x)) == Format(x)
  {
    var n := Digits(x);
    var m := Min(11, |n|);
    FormatKeepsDigits(x);
    var n' := Digits(Format(x));
    assert n' == n[..m];
    if |n| >= 8 {
      assert n'[..3] == n[..3] && n'[3..7] == n[3..7];
      assert n'[7..Min(11, |n'|)] == n[7..m];
    } else {
      assert n' == n;
    }
  }

  /** Fewer than eleven digits never format to a valid number: the result
      is too short. */
  lemma FormatShortIsInvalid(x: string)
    requires |Digits(x)| < 11
    ensures !Validate(Format(x))
  {
    FormatDashes(x);
  }

  /** Eleven digits dashed as 3-4-4 pass the validator exactly when they
      start with `010`. */
  lemma DashedElevenValidIff010(n: string)
    requires |n| == 11 && AllDigits(n)
    ensures Validate(n[..3] + "-" + n[3..7] + "-" + n[7..]) <==> n[..3] == "010"
  {
    var r := n[..3] + "-" + n[3..7] + "-" + n[7..];
    DashedElevenShape(n);
  }

  lemma DashedElevenShape(n: string)
    requires |n| == 11 && AllDigits(n)
    ensures PhoneShape(n[..3] + "-" + n[3..7] + "-" + n[7..]) <==> n[..3] == "010"
  {
    var r := n[..3] + "-" + n[3..7] + "-" + n[7..];
    assert |r| == 13 && r[8] == '-';
    assert r[..4] == n[..3] + "-";
    forall i | 4 <= i < 13 && i != 8 ensures IsDigit(r[i]) {
      if i < 8 { assert r[i] == n[i - 1]; } else { assert r[i] == n[i - 2]; }
    }
    if r[..4] == "010-" {
      assert n[..3] == r[..4][..3];
    }
  }

  /** With eleven digits or more, the formatted number is valid exactly when
      it starts with `010`. */
  lemma FormatLongIsValidIff010(x: string)
    requires |Digits(x)| >= 11
    ensures Validate(Format(x)) <==> Digits(x)[..3] == "010"
  {
    var n := Digits(x);
    var e := n[..11];
    assert Format(x) == e[..3] + "-" + e[3..7] + "-" + e[7..];
    DashedElevenValidIff010(e);
  }

  /** A formatted number passes the validator exactly when the input has at
      least eleven digits and the first three are `010`. */
  lemma ValidateFormat(x: string)
    ensures var n := Digits(x);
      Validate(Format(x)) <==> |n| >= 11 && n[..3] == "010"
  {
    if |Digits(x)| < 11 {
      FormatShortIsInvalid(x);
    } else {
      FormatLongIsValidIff010(x);
    }
  }
}

=== FILE: records.dfy ===
/** The one entity of the system, a consultation application, in the three
    shapes the code handles: the attribution data collected on page load,
    the payload a form inserts, and the row the datastore hands back. */
module Records {
  import opened Wrappers

  /** The `referrer_url` stored for a visit with no referrer. The dashboard
      treats a row carrying it like one with no referrer at all. */
  const NoReferrer: string := "direct"

  /** The three regions a visitor can choose. */
  datatype Region = Seoul | GyeonggiIncheon | Elsewhere {

    /** The label shown on the button and stored in the `region` column. */
    function Label(): string {
      match this
      case Seoul => "서울"
      case GyeonggiIncheon => "경기인천"
      case Elsewhere => "그 외지역"
    }
  }

  /** Distinct regions have distinct labels, so a label identifies its region. */
  lemma RegionLabelsDistinct(a: Region, b: Region)
    ensures a.Label() == b.Label() ==> a == b
  {
  }

  /** Referrer and UTM data attached to an insert; `None` is a field the
      object does not carry. */
  datatype ReferrerData = ReferrerData(
    referrerUrl: Option<string>,
    utmSource: Option<string>,
    utmMedium: Option<string>,
    utmCampaign: Option<string>,
    source: Option<string>)

  /** The empty object the form starts with. */
  const NoReferrerData := ReferrerData(None, None, None, None, None)

  /** An insert payload: an application without the columns the datastore
      assigns (`id`, `created_at`, `updated_at`). */
  datatype NewApplication = NewApplication(
    name: string,
    contact: string,
    checkboxSelection: seq<string>,
    region: Region,
    privacyConsent: bool,
    referrerData: ReferrerData)

  /** A stored application as the dashboard reads it. The datastore always
      assigns `id`; the optional columns are the ones the dashboard reads
      beyond the declared interface. */
  datatype Application = Application(
    id: string,
    name: string,
    contact: string,
    checkboxSelection: seq<string>,
    region: Region,
    privacyConsent: bool,
    createdAt: Option<string>,
    updatedAt: Option<string>,
    source: Option<string>,
    utmSource: Option<string>,
    referrerUrl: Option<string>,
    deliveredAt: Option<string>)

  /** What the datastore client reports for an insert, update or delete:
      success, or an error object carrying a (possibly empty) message. */
  datatype Outcome = Done | Failed(message: string)

  /** What a stored row can give back of the insert that created it: the
      columns the row carries, with the UTM medium and campaign (columns the
      dashboard never reads) unknown. */
  function Submission(row: Application): NewApplication {
    NewApplication(row.name, row.contact, row.checkboxSelection, row.region, row.privacyConsent,
                   ReferrerData(row.referrerUrl, row.utmSource, None, None, row.source))
  }

  /** The datastore's side of an insert: the row it creates for a payload,
      given the identifier and timestamp it assigns. Reading the row back
      gives the payload, less the two columns the row type leaves out; a new
      row is not yet delivered and was last updated when it was created. */
  function Stored(p: NewApplication, id: string, createdAt: string): (row: Application)
    ensures row.id == id && row.createdAt == Some(createdAt) && row.updatedAt == row.createdAt
    ensures row.deliveredAt == None
    ensures Submission(row) == p.(referrerData := p.referrerData.(utmMedium := None, utmCampaign := None))
  {
    Application(id, p.name, p.contact, p.checkboxSelection, p.region, p.privacyConsent,
                Some(createdAt), Some(createdAt), p.referrerData.source, p.referrerData.utmSource,
                p.referrerData.referrerUrl, None)
  }
}

=== FILE: slack_route.dfy ===
/** The Slack notification endpoint (`app/api/slack/route.ts`): the message
    it builds from a submitted application and the response it returns for
    each way the webhook call can go. The clock and the HTTP call are
    parameters. */
module SlackRoute {
  import opened Wrappers
  import opened Text

  /** The request body after `request.json()`: the four destructured fields
      (each possibly absent), or a failure to read them with its message. */
  datatype Body =
    | Parsed(name: Option<string>, contact: Option<string>, region: Option<string>, source: Option<string>)
    | Unreadable(message: string)

  /** A Slack block, with the text each carries. */
  datatype Block =
    | Header(text: string)
    | Divider
    | Section(fields: seq<string>)
    | Context(elements: seq<string>)

  datatype Message = Message(text: string, blocks: seq<Block>)

  /** What the webhook call produced: an HTTP status, or a thrown error
      with its message. */
  datatype WebhookOutcome = Responded(status: int) | Threw(message: string)

  datatype ResponseBody = Success | Error(error: string)
  datatype Response = Response(status: int, body: ResponseBody)

  /** The POST the route sends to the webhook. */
  datatype Outbound = Outbound(url: string, message: Message)

  /** The route's response, and the webhook POST it made, if any. */
  datatype Handled = Handled(response: Response, sent: Option<Outbound>)

  const MissingUrlError: string := "Slack webhook URL이 설정되지 않았습니다."
  const DeliveryError: string := "Slack 알림 전송 실패"
  const UnknownError: string := "알 수 없는 오류가 발생했습니다."
  const FallbackText: string := "🎉 새로운 지원자가 등록되었습니다!"
  const HeaderText: string := "🎉 새로운 지원자 등록"
  const NoRegion: string := "미선택"
  const NoSource: string := "직접 접속"
  const TimePrefix: string := "등록 시간: "

  /** A template-literal interpolation: an absent value prints as `undefined`. */
  function Interpolate(v: Option<string>): (r: string)
    ensures v.Some? ==> r == v.value
    ensures v.None? ==> r == "undefined"
  {
    match v
    case Some(x) => x
    case None => "undefined"
  }

  /** One `*label:*` line, the value on the next line. */
  function Field(title: string, value: string): (r: string)
    ensures |r| == |title| + 4 + |value|
    ensures r[1..|title| + 1] == title && r[|title| + 4..] == value
  {
    "*" + title + ":*\n" + value
  }

  /** The four section fields, in order: name and contact verbatim, region
      and source with their fallbacks when falsy. */
  function Fields(name: Option<string>, contact: Option<string>, region: Option<string>, source: Option<string>): (fs: seq<string>)
    ensures |fs| == 4
    ensures fs[0] == Field("이름", Interpolate(name))
    ensures fs[1] == Field("연락처", Interpolate(contact))
    ensures fs[2] == Field("지역", OrElse(region, NoRegion))
    ensures fs[3] == Field("유입 경로", OrElse(source, NoSource))
  {
    [Field("이름", Interpolate(name)), Field("연락처", Interpolate(contact)),
     Field("지역", OrElse(region, NoRegion)), Field("유입 경로", OrElse(source, NoSource))]
  }

  /** The message: fallback text, then header, divider, the four fields,
      divider, and the registration time in Seoul time. */
  function BuildMessage(name: Option<string>, contact: Option<string>, region: Option<string>, source: Option<string>, seoulTime: string): (m: Message)
    ensures m.text == FallbackText
    ensures |m.blocks| == 5
    ensures m.blocks[0] == Header(HeaderText)
    ensures m.blocks[1] == Divider && m.blocks[3] == Divider
    ensures m.blocks[2] == Section(Fields(name, contact, region, source))
    ensures m.blocks[4] == Context([TimePrefix + seoulTime])
  {
    Message(FallbackText, [
      Header(HeaderText),
      Divider,
      Section(Fields(name, contact, region, source)),
      Divider,
      Context([TimePrefix + seoulTime])])
  }

  /** `response.ok`. */
  predicate Ok(status: int) { 200 <= status <= 299 }

  /** The statuses a JSON response can be built with: building one throws
      for a status outside 200..599 and for a status that may not carry a
      body (204, 205, 304), as the Fetch standard's `Response` constructor
      requires. */
  predicate Forwardable(status: int) {
    200 <= status <= 599 && status != 204 && status != 205 && status != 304
  }

  /** The outcome of a thrown error: 500 with its message, or the generic
      message when it has none. */
  function Failure(message: string): (r: Response)
    ensures r.status == 500 && r.body.Error?
    ensures message != "" ==> r.body.error == message
    ensures message == "" ==> r.body.error == UnknownError
  {
    Response(500, Error(if message != "" then message else UnknownError))
  }

  /** The handler. A body that cannot be read fails with 500 before
      anything is sent; a missing webhook URL fails with 500 and a fixed
      error without sending; otherwise the message goes to the webhook,
      a non-2xx status is passed back with a fixed error, a thrown call
      fails with 500, and success answers `{ success: true }`. A non-2xx
      status the response cannot carry makes building the response throw;
      the handler then fails with 500 and `runtimeError`, the message the
      runtime gives that error. */
  function Post(body: Body, webhookUrl: Option<string>, seoulTime: string, webhook: WebhookOutcome,
                runtimeError: string): (h: Handled)
    ensures body.Unreadable? ==> h.sent.None? && h.response == Failure(body.message)
    ensures body.Parsed? && !Truthy(webhookUrl) ==>
      h.sent.None? && h.response == Response(500, Error(MissingUrlError))
    ensures h.sent.Some? <==> body.Parsed? && Truthy(webhookUrl)
    ensures h.sent.Some? ==>
      h.sent.value.url == webhookUrl.value &&
      h.sent.value.message == BuildMessage(body.name, body.contact, body.region, body.source, seoulTime)
    ensures h.response.body.Success? <==> h.sent.Some? && webhook.Responded? && Ok(webhook.status)
    ensures h.response.body.Success? ==> h.response.status == 200
    ensures body.Parsed? && Truthy(webhookUrl) && webhook.Threw? ==> h.response == Failure(webhook.message)
  {
    match body
    case Unreadable(message) => Handled(Failure(message), None)
    case Parsed(name, contact, region, source) =>
      if !Truthy(webhookUrl) then
        Handled(Response(500, Error(MissingUrlError)), None)
      else
        var sent := Some(Outbound(webhookUrl.value, BuildMessage(name, contact, region, source, seoulTime)));
        match webhook
        case Threw(message) => Handled(Failure(message), sent)
        case Responded(status) =>
          if Ok(status) then Handled(Response(200, Success), sent)
          else if Forwardable(status) then Handled(Response(status, Error(DeliveryError)), sent)
          else Handled(Failure(runtimeError), sent)
  }

  /** Once the message is sent, a failure status the response can carry
      reaches the caller unchanged, with the fixed delivery error. */
  lemma FailedDeliveryForwardsStatus(body: Body, url: string, seoulTime: string, status: int, runtimeError: string)
    requires body.Parsed? && url != "" && !Ok(status) && Forwardable(status)
    ensures Post(body, Some(url), seoulTime, Responded(status), runtimeError).response
            == Response(status, Error(DeliveryError))
  {
  }

  /** Any other failure status (below 200, 304, or above 599) ends in the
      catch block: 500 with the runtime's message or the generic one. */
  lemma UnforwardableStatusFails(body: Body, url: string, seoulTime: string, status: int, runtimeError: string)
    requires body.Parsed? && url != "" && !Ok(status) && !Forwardable(status)
    ensures Post(body, Some(url), seoulTime, Responded(status), runtimeError).response == Failure(runtimeError)
  {
  }

  /** Every failure the route reports carries a non-empty error. */
  lemma ErrorsAreNeverEmpty(body: Body, webhookUrl: Option<string>, seoulTime: string, webhook: WebhookOutcome,
                            runtimeError: string)
    ensures var r := Post(body, webhookUrl, seoulTime, webhook, runtimeError).response;
      r.body.Error? ==> r.body.error != ""
  {
  }

  /** The success status is 200 and every failure status is outside the
      2xx range, so a caller can tell them apart from the status alone. */
  lemma StatusSeparatesOutcomes(body: Body, webhookUrl: Option<string>, seoulTime: string, webhook: WebhookOutcome,
                                runtimeError: string)
    ensures var r := Post(body, webhookUrl, seoulTime, webhook, runtimeError).response;
      r.body.Success? <==> Ok(r.status)
  {
  }

  /** The four section fields can be read back: each value follows its
      label line, so the message carries exactly the submitted name and
      contact and the region and source or their fallbacks. */
  lemma FieldsReadBack(name: Option<string>, contact: Option<string>, region: Option<string>, source: Option<string>)
    ensures var fs := Fields(name, contact, region, source);
      fs[0][|"이름"| + 4..] == Interpolate(name)
      && fs[1][|"연락처"| + 4..] == Interpolate(contact)
      && fs[2][|"지역"| + 4..] == OrElse(region, NoRegion)
      && fs[3][|"유입 경로"| + 4..] == OrElse(source, NoSource)
  {
  }

  /** Falsy region and source values show their fallbacks; a non-empty
      region shows as given. */
  lemma EmptySourceShowsDirectVisit(name: string, contact: string, region: string)
    ensures Fields(Some(name), Some(contact), Some(region), Some(""))[3] == Field("유입 경로", NoSource)
    ensures Fields(Some(name), Some(contact), Some(""), None)[2] == Field("지역", NoRegion)
    ensures region != "" ==> Fields(Some(name), Some(contact), Some(region), None)[2] == Field("지역", region)
  {
  }
}

=== FILE: text.dfy ===
/** String primitives the TypeScript code relies on, over `seq<char>`:
    `includes`, `indexOf`, `replace` (first occurrence), `toLowerCase`,
    `trim`, `split` and `join`, plus character filtering. */
module Text {
  import opened Wrappers

  /** JavaScript truthiness of an optional string: present and non-empty. */
  predicate Truthy(o: Option<string>) {
    o.Some? && o.value != ""
  }

  /** `o || fallback` for an optional string. */
  function OrElse(o: Option<string>, fallback: string): (r: string)
    ensures Truthy(o) ==> r == o.value
    ensures !Truthy(o) ==> r == fallback
  {
    if Truthy(o) then o.value else fallback
  }

  /** `o || undefined`: the empty string is dropped. */
  function NonEmpty(o: Option<string>): (r: Option<string>)
    ensures Truthy(o) ==> r == o
    ensures !Truthy(o) ==> r == None
  {
    if Truthy(o) then o else None
  }

  predicate IsDigit(c: char) {
    '0' <= c <= '9'
  }

  predicate AllDigits(s: string) {
    forall i :: 0 <= i < |s| ==> IsDigit(s[i])
  }

  /** The code points JavaScript's `String.prototype.trim` removes: the
      WhiteSpace and LineTerminator productions of ECMAScript. */
  predicate IsJsSpace(c: char) {
    || c == '\t' || c == '\n' || c == '\U{B}' || c == '\U{C}' || c == '\r' || c == ' '
    || c == '\U{A0}' || c == '\U{1680}' || ('\U{2000}' <= c <= '\U{200A}')
    || c == '\U{2028}' || c == '\U{2029}' || c == '\U{202F}' || c == '\U{205F}'
    || c == '\U{3000}' || c == '\U{FEFF}'
  }

  /** True when `s` trims to the empty string (`!s.trim()` in the source). */
  predicate IsBlank(s: string) {
    forall i :: 0 <= i < |s| ==> IsJsSpace(s[i])
  }

  // ---------------------------------------------------------------------
  // Substring search

  /** `sub` occurs in `s` starting at position `i`. */
  predicate OccursAt(s: string, sub: string, i: int) {
    0 <= i <= |s| - |sub| && s[i..i + |sub|] == sub
  }

  /** `s.includes(sub)`. */
  predicate Contains(s: string, sub: string) {
    exists i :: 0 <= i <= |s| && OccursAt(s, sub, i)
  }

  /** `s.indexOf(sub, k)` for `k <= |s|`: the first position at or after `k`
      where `sub` occurs, or -1. */
  function IndexOfFrom(s: string, sub: string, k: nat): (r: int)
    requires k <= |s|
    ensures r == -1 || (k <= r && OccursAt(s, sub, r))
    ensures r == -1 ==> forall j :: k <= j ==> !OccursAt(s, sub, j)
    ensures r != -1 ==> forall j :: k <= j < r ==> !OccursAt(s, sub, j)
    decreases |s| - k
  {
    if k + |sub| > |s| then -1
    else if s[k..k + |sub|] == sub then k
    else IndexOfFrom(s, sub, k + 1)
  }

  /** `s.indexOf(sub)`: the first occurrence, or -1 exactly when `sub` does
      not occur. */
  function IndexOf(s: string, sub: string): (r: int)
    ensures r >= 0 <==> Contains(s, sub)
    ensures r >= 0 ==> OccursAt(s, sub, r)
    ensures r >= 0 ==> forall j :: 0 <= j < r ==> !OccursAt(s, sub, j)
  {
    IndexOfFrom(s, sub, 0)
  }

  /** `s.replace(pat, rep)` with a string pattern: only the FIRST occurrence
      is replaced, wherever it is. */
  function ReplaceFirst(s: string, pat: string, rep: string): (r: string)
    ensures !Contains(s, pat) ==> r == s
    ensures Contains(s, pat) ==>
      exists i :: OccursAt(s, pat, i) && (forall j :: 0 <= j < i ==> !OccursAt(s, pat, j))
        && r == s[..i] + rep + s[i + |pat|..]
  {
    var i := IndexOf(s, pat);
    if i < 0 then s else s[..i] + rep + s[i + |pat|..]
  }

  /** Replacing at the first occurrence. */
  lemma ReplaceFirstAt(s: string, pat: string, rep: string, k: int)
    requires OccursAt(s, pat, k)
    requires forall j :: 0 <= j < k ==> !OccursAt(s, pat, j)
    ensures ReplaceFirst(s, pat, rep) == s[..k] + rep + s[k + |pat|..]
  {
    assert Contains(s, pat);
    var i :| OccursAt(s, pat, i) && (forall j :: 0 <= j < i ==> !OccursAt(s, pat, j))
      && ReplaceFirst(s, pat, rep) == s[..i] + rep + s[i + |pat|..];
    assert OccursAt(s, pat, i);
    assert !(i < k);
    assert !(k < i);
  }

  /** A string containing `a + b` contains `a`. */
  lemma ContainsPrefixOf(s: string, a: string, b: string)
    requires Contains(s, a + b)
    ensures Contains(s, a)
  {
    var i :| 0 <= i <= |s| && OccursAt(s, a + b, i);
    assert s[i..i + |a| + |b|] == a + b;
    assert s[i..i + |a|] == (a + b)[..|a|];
    assert OccursAt(s, a, i);
  }

  /** Every string contains itself. */
  lemma ContainsSelf(s: string)
    ensures Contains(s, s)
  {
    assert s[0..|s|] == s;
    assert OccursAt(s, s, 0);
  }

  /** A string lacking one of the characters of `sub` does not contain `sub`. */
  lemma NotContainsMissingChar(s: string, sub: string, j: int)
    requires 0 <= j < |sub| && sub[j] !in s
    ensures !Contains(s, sub)
  {
    forall i | 0 <= i <= |s| ensures !OccursAt(s, sub, i) {
      if i <= |s| - |sub| {
        assert s[i..i + |sub|][j] == s[i + j];
        assert s[i + j] in s;
      }
    }
  }

  // ---------------------------------------------------------------------
  // Case mapping

  /** `toLowerCase` on one character, for the ASCII letters. */
  function LowerChar(c: char): (r: char)
    ensures 'A' <= c <= 'Z' ==> r as int == c as int + 32
    ensures !('A' <= c <= 'Z') ==> r == c
  {
    if 'A' <= c <= 'Z' then (c as int + 32) as char else c
  }

  function ToLower(s: string): (r: string)
    ensures |r| == |s|
    ensures forall i :: 0 <= i < |s| ==> r[i] == LowerChar(s[i])
  {
    seq(|s|, i requires 0 <= i < |s| => LowerChar(s[i]))
  }

  /** Lower-casing leaves a string without upper-case letters unchanged. */
  lemma ToLowerNoUpper(s: string)
    requires forall i :: 0 <= i < |s| ==> !('A' <= s[i] <= 'Z')
    ensures ToLower(s) == s
  {
  }

  /** Lower-casing twice is lower-casing once. */
  lemma ToLowerIdempotent(s: string)
    ensures ToLower(ToLower(s)) == ToLower(s)
  {
  }

  // ---------------------------------------------------------------------
  // Filtering

  /** The characters of `s` that satisfy `p`, in order (`s.replace(/[^p]/g, '')`). */
  function Keep(s: string, p: char -> bool): (r: string)
    ensures |r| <= |s|
    ensures forall i :: 0 <= i < |r| ==> p(r[i])
    decreases |s|
  {
    if |s| == 0 then ""
    else (if p(s[0]) then [s[0]] else "") + Keep(s[1..], p)
  }

  lemma {:induction false} KeepConcat(a: string, b: string, p: char -> bool)
    ensures Keep(a + b, p) == Keep(a, p) + Keep(b, p)
    decreases |a|
  {
    if |a| == 0 {
      assert a + b == b;
    } else {
      assert (a + b)[1..] == a[1..] + b;
      KeepConcat(a[1..], b, p);
    }
  }

  /** Filtering keeps a string whose every character passes unchanged. */
  lemma {:induction false} KeepAll(s: string, p: char -> bool)
    requires forall i :: 0 <= i < |s| ==> p(s[i])
    ensures Keep(s, p) == s
    decreases |s|
  {
    if |s| > 0 {
      KeepAll(s[1..], p);
    }
  }

  /** Filtering drops a string whose every character fails. */
  lemma {:induction false} KeepNone(s: string, p: char -> bool)
    requires forall i :: 0 <= i < |s| ==> !p(s[i])
    ensures Keep(s, p) == ""
    decreases |s|
  {
    if |s| > 0 {
      KeepNone(s[1..], p);
    }
  }

  // ---------------------------------------------------------------------
  // Trimming

  /** `s.trim()`: whitespace is cut off the front, then off the back. Neither
      end of the result is whitespace, and it is empty exactly when `s` is
      blank (`TrimIsTrimmedSlice` adds that it is a slice of `s` with only
      whitespace cut off). */
  function Trim(s: string): (r: string)
    ensures |r| <= |s|
    ensures |r| > 0 ==> !IsJsSpace(r[0]) && !IsJsSpace(r[|r| - 1])
    ensures r == "" <==> IsBlank(s)
    decreases |s|
  {
    if |s| > 0 && IsJsSpace(s[0]) then
      BlankWithoutFirst(s);
      Trim(s[1..])
    else if |s| > 0 && IsJsSpace(s[|s| - 1]) then
      BlankWithoutLast(s);
      Trim(s[..|s| - 1])
    else s
  }

  lemma BlankWithoutFirst(s: string)
    requires |s| > 0 && IsJsSpace(s[0])
    ensures IsBlank(s) <==> IsBlank(s[1..])
  {
    if IsBlank(s[1..]) {
      forall i | 1 <= i < |s| ensures IsJsSpace(s[i]) {
        assert s[i] == s[1..][i - 1];
      }
    }
  }

  lemma BlankWithoutLast(s: string)
    requires |s| > 0 && IsJsSpace(s[|s| - 1])
    ensures IsBlank(s) <==> IsBlank(s[..|s| - 1])
  {
    if IsBlank(s[..|s| - 1]) {
      forall i | 0 <= i < |s| - 1 ensures IsJsSpace(s[i]) {
        assert s[i] == s[..|s| - 1][i];
      }
    }
  }

  /** `r` is the slice of `s` at offset `i` and everything outside it is whitespace. */
  predicate TrimmedAt(s: string, r: string, i: int) {
    && 0 <= i <= |s| - |r|
    && r == s[i..i + |r|]
    && (forall k :: 0 <= k < i ==> IsJsSpace(s[k]))
    && (forall k :: i + |r| <= k < |s| ==> IsJsSpace(s[k]))
  }

  /** The trimmed string is a slice of `s` with only whitespace outside it. */
  lemma {:induction false} TrimIsTrimmedSlice(s: string)
    ensures exists i :: TrimmedAt(s, Trim(s), i)
    decreases |s|
  {
    var r := Trim(s);
    if |s| > 0 && IsJsSpace(s[0]) {
      TrimIsTrimmedSlice(s[1..]);
      var i :| TrimmedAt(s[1..], r, i);
      TrimmedAfterFirst(s, r, i);
    } else if |s| > 0 && IsJsSpace(s[|s| - 1]) {
      TrimIsTrimmedSlice(s[..|s| - 1]);
      var i :| TrimmedAt(s[..|s| - 1], r, i);
      TrimmedBeforeLast(s, r, i);
    } else {
      assert TrimmedAt(s, r, 0);
    }
  }

  lemma TrimmedAfterFirst(s: string, r: string, i: int)
    requires |s| > 0 && IsJsSpace(s[0])
    requires TrimmedAt(s[1..], r, i)
    ensures TrimmedAt(s, r, i + 1)
  {
    assert s[1..][i..i + |r|] == s[i + 1..i + 1 + |r|];
    forall k | 1 <= k < i + 1 ensures IsJsSpace(s[k]) {
      assert s[k] == s[1..][k - 1];
    }
    forall k | i + 1 + |r| <= k < |s| ensures IsJsSpace(s[k]) {
      assert s[k] == s[1..][k - 1];
    }
  }

  lemma TrimmedBeforeLast(s: string, r: string, i: int)
    requires |s| > 0 && IsJsSpace(s[|s| - 1])
    requires TrimmedAt(s[..|s| - 1], r, i)
    ensures TrimmedAt(s, r, i)
  {
    assert s[..|s| - 1][i..i + |r|] == s[i..i + |r|];
    forall k | 0 <= k < i ensures IsJsSpace(s[k]) {
      assert s[k] == s[..|s| - 1][k];
    }
    forall k | i + |r| <= k < |s| - 1 ensures IsJsSpace(s[k]) {
      assert s[k] == s[..|s| - 1][k];
    }
  }

  /** Trimming is idempotent. */
  lemma TrimIdempotent(s: string)
    ensures Trim(Trim(s)) == Trim(s)
  {
  }

  // ---------------------------------------------------------------------
  // Splitting and joining

  /** Number of occurrences of `c` in `s`. */
  function Count(s: string, c: char): nat
    decreases |s|
  {
    if |s| == 0 then 0 else (if s[0] == c then 1 else 0) + Count(s[1..], c)
  }

  /** `s.split(sep)` for a one-character separator: the maximal runs between
      separators, always at least one of them. */
  function Split(s: string, sep: char): (parts: seq<string>)
    ensures |parts| == Count(s, sep) + 1
    ensures forall k :: 0 <= k < |parts| ==> sep !in parts[k]
    decreases |s|
  {
    if |s| == 0 then [""]
    else
      var rest := Split(s[1..], sep);
      if s[0] == sep then [""] + rest
      else [[s[0]] + rest[0]] + rest[1..]
  }

  /** `parts.join(sep)`. */
  function Join(parts: seq<string>, sep: string): string
    decreases |parts|
  {
    if |parts| == 0 then ""
    else if |parts| == 1 then parts[0]
    else parts[0] + sep + Join(parts[1..], sep)
  }

  lemma JoinCons(head: string, tail: seq<string>, sep: string)
    requires |tail| > 0
    ensures Join([head] + tail, sep) == head + sep + Join(tail, sep)
  {
    assert ([head] + tail)[1..] == tail;
  }

  lemma JoinPrependChar(c: char, parts: seq<string>, sep: string)
    requires |parts| > 0
    ensures Join([[c] + parts[0]] + parts[1..], sep) == [c] + Join(parts, sep)
  {
    var ps := [[c] + parts[0]] + parts[1..];
    if |parts| > 1 {
      assert ps[1..] == parts[1..];
    }
  }

  /** Joining the pieces of a split with the same separator gives back the
      original string. */
  lemma {:induction false} JoinSplit(s: string, sep: char)
    ensures Join(Split(s, sep), [sep]) == s
    decreases |s|
  {
    if |s| > 0 {
      var rest := Split(s[1..], sep);
      JoinSplit(s[1..], sep);
      if s[0] == sep {
        JoinCons("", rest, [sep]);
      } else {
        JoinPrependChar(s[0], rest, [sep]);
      }
    }
  }
}

=== FILE: wrappers.dfy ===
/** The optional-value datatype shared by the whole model: JavaScript's
    `undefined`/`null` on the one hand and a present value on the other. */
module Wrappers {

  datatype Option<+T> = None | Some(value: T)
}
